=== FILE: README.md ===
# Superset Trino engine spec, database creation, Explore endpoint and CLI token — a Dafny model

This project models four pieces of the Apache Superset backend and proves
properties of them.

- **The Trino engine spec** (`superset/db_engine_specs/trino.py`):
  expansion of nested `ROW` columns into dotted sub-columns with their
  `query_as` expressions (`trino_columns.dfy`); the `partitions` and `view`
  parts of a table's extra metadata (`trino_partitions.dfy`); user
  impersonation, extra connection parameters and authentication from the
  encrypted extra, each as a function on dictionary contents plus a method
  updating a dictionary object in place (`trino_params.dfy`); the
  early-cancel handshake between `prepare_cancel_query` and
  `handle_cursor`, and `cancel_query` (`trino_cancel.dfy`); the DB-API
  exception mapping and its lookup order (`trino_errors.dfy`).
- **`CreateDatabaseCommand`** (`superset/commands/database/create.py`):
  validation, the rewriting of the encrypted extra, and the classification
  of each failure that `run`'s own `except` clauses catch into the error
  they raise and the event they log (`create_database.dfy`). What the
  `transaction` decorator around `run` does with an error that leaves `run`
  is not part of this model. The uniqueness check, the connection test,
  storing the database, the SSH_TUNNELING feature flag, the SSH tunnel
  command and the permission set-up are collaborators whose outcomes are
  inputs.
- **The Explore endpoint's `get`** (`superset/explore/api.py`): the
  mapping from the command's result or exception to the HTTP response,
  checked against a table of the `except` clauses in order
  (`explore_api.dfy`).
- **`normalize_token`** (`superset/cli/main.py`) (`cli_token.dfy`).

`py_values.dfy` holds the Python values the others share: JSON-like
values, truthiness, `dict.get` and `dict.setdefault`, and a dictionary
object that methods update in place.

The docstring of `normalize_token` says it turns dashes into underscores.
The code turns underscores into dashes, which is what click needs. The
model follows the code.

## Model

| member | source | states |
|---|---|---|
| TrinoColumns.SplitDots | superset/db_engine_specs/trino.py:425 | splitting on "." gives at least one piece and no piece holds a dot |
| TrinoColumns.JoinSplit | superset/db_engine_specs/trino.py:424-425 | joining the pieces of a split name with "." gives back the name |
| TrinoColumns.SplitJoin | superset/db_engine_specs/trino.py:424-425 | splitting the join of dot-free pieces gives back the pieces |
| TrinoColumns.SplitDotFree | superset/db_engine_specs/trino.py:425 | a dot-free name splits into itself alone |
| TrinoColumns.SplitPrefix | superset/db_engine_specs/trino.py:424-425 | splitting `w.rest` for a dot-free `w` gives `w` followed by the pieces of `rest` |
| TrinoColumns.QueryAs | superset/db_engine_specs/trino.py:424-434 | models the `query_as` expression of an expanded column; its shape is stated by QuotedPathOfComponents |
| TrinoColumns.QuotedPathOfComponents | superset/db_engine_specs/trino.py:424-434 | for a name built from dot-free components, the query path quotes each component and `query_as` aliases it to the full dotted name |
| TrinoColumns.ExpandColumn | superset/db_engine_specs/trino.py:398-438 | the expansion starts with the column itself, is just that column for a non-ROW type, and every further column has a name extending the parent's with ".", a `query_as` built from that name, and `is_dttm` exactly when the column-spec lookup says so for its type |
| TrinoColumns.ExpandFields | superset/db_engine_specs/trino.py:422-436 | every column produced for the ROW fields is a generated sub-column of the outer name |
| TrinoColumns.ExpandColumnCount | superset/db_engine_specs/trino.py:416-438 | the expansion has one column per node of the type's named-field tree |
| TrinoColumns.ExpandFieldsCount | superset/db_engine_specs/trino.py:422-436 | the fields from index i on produce one column per node below them |
| TrinoColumns.ExpandColumnNames | superset/db_engine_specs/trino.py:416-438 | the expanded columns are named by the dotted paths of the field tree in pre-order, against an independent path definition |
| TrinoColumns.ExpandFieldsNames | superset/db_engine_specs/trino.py:422-436 | the fields from index i on are named by their dotted paths in pre-order |
| TrinoColumns.ExpandColumnTypes | superset/db_engine_specs/trino.py:416-438 | each expanded column has the type of its node in the field tree, in pre-order, against an independent list of the tree's types: the column its own type, each sub-column its field's inner type |
| TrinoColumns.ExpandFieldsTypes | superset/db_engine_specs/trino.py:422-436 | the fields from index i on have their inner types in pre-order |
| TrinoColumns.ExpandAllAppend | superset/db_engine_specs/trino.py:466 | expanding a concatenation of column lists is the concatenation of the expansions |
| TrinoColumns.ExpandAllCount | superset/db_engine_specs/trino.py:466 | expanding all base columns gives the total node count of their types |
| TrinoColumns.ExpandAllFlat | superset/db_engine_specs/trino.py:466 | base columns with no ROW type come back unchanged |
| TrinoColumns.ExpandAll | superset/db_engine_specs/trino.py:466 | models the flattening comprehension over the base columns; stated by ExpandAllAppend, ExpandAllCount and ExpandAllFlat |
| TrinoColumns.GetColumnsSpec | superset/db_engine_specs/trino.py:463-466 | without `expand_rows` the base columns are returned; with it every base column is followed by its sub-columns, the count is the total node count, and flat tables are unchanged |
| TrinoColumns.GetColumns | superset/db_engine_specs/trino.py:441-466 | models `get_columns` after the base columns are read; stated by GetColumnsSpec |
| TrinoPartitions.StrLessIrreflexive | superset/db_engine_specs/trino.py:102-111 | the string order used by `sorted` is irreflexive |
| TrinoPartitions.StrLessTransitive | superset/db_engine_specs/trino.py:102-111 | the string order is transitive |
| TrinoPartitions.StrLessTotal | superset/db_engine_specs/trino.py:102-111 | any two different strings are ordered one way or the other |
| TrinoPartitions.StrLessAsymmetric | superset/db_engine_specs/trino.py:102-111 | the string order is asymmetric |
| TrinoPartitions.StrictlySortedDistinct | superset/db_engine_specs/trino.py:102-111 | a strictly sorted list has no duplicates |
| TrinoPartitions.Insert | superset/db_engine_specs/trino.py:102-111 | inserting into a strictly sorted list keeps it strictly sorted and adds exactly the new element |
| TrinoPartitions.SortedUnique | superset/db_engine_specs/trino.py:102-111 | `sorted(list(set(names)))` is strictly sorted and holds exactly the names |
| TrinoPartitions.StrictlySortedUnique | superset/db_engine_specs/trino.py:102-111 | two strictly sorted lists with the same elements are equal, so `cols` is determined by the set of names |
| TrinoPartitions.PartitionColumnNamesSpec | superset/db_engine_specs/trino.py:104-109 | a name is collected exactly when some index named "partition" lists it |
| TrinoPartitions.PartitionColsSpec | superset/db_engine_specs/trino.py:101-111 | `cols` is strictly sorted and holds exactly the columns of the partition indexes |
| TrinoPartitions.PartitionCols | superset/db_engine_specs/trino.py:102-111 | models the `cols` entry; stated by PartitionColsSpec |
| TrinoPartitions.ZipIntoNulls | superset/db_engine_specs/trino.py:98-112 | zipping the column names with None maps every name, and nothing else, to None |
| TrinoPartitions.ZipIntoDistinct | superset/db_engine_specs/trino.py:112 | with distinct names, each paired name maps to its own value |
| TrinoPartitions.ZipIntoKeeps | superset/db_engine_specs/trino.py:112 | a key the remaining pairs do not mention keeps its value |
| TrinoPartitions.ZipIntoKeys | superset/db_engine_specs/trino.py:112 | `zip` adds exactly the names that get a partner: the first min(names, parts) of them |
| TrinoPartitions.LatestSpec | superset/db_engine_specs/trino.py:98-112 | missing or empty latest parts map every column name, and only those, to None; otherwise the keys are exactly the names `zip` pairs with a part, and each distinct name maps to its part |
| TrinoPartitions.Latest | superset/db_engine_specs/trino.py:98-112 | models the `latest` entry; stated by LatestSpec |
| TrinoPartitions.ExtraTableMetadata | superset/db_engine_specs/trino.py:88-130 | `partitions` is present exactly when the table has indexes; its `cols` are strictly sorted and hold exactly the columns of the partition indexes; without latest parts `latest` maps every column name, and only those, to None, and otherwise has exactly the names `zip` pairs as keys and maps each distinct name to its part; the partition query is the one given; `view` is the view definition when there is one |
| TrinoParams.ImpersonatedSpec | superset/db_engine_specs/trino.py:133-153 | without a user nothing changes; otherwise only `connect_args` changes; for trino it gets the user and a bearer session exactly when a token is given, and fails with TypeError, leaving the arguments as they were, exactly when `connect_args` is not a dict; other backends only get a missing `connect_args` created as an empty dict |
| TrinoParams.ImpersonateUser | superset/db_engine_specs/trino.py:133-153 | updates the keyword-argument dictionary in place to the impersonated contents |
| TrinoParams.Impersonated | superset/db_engine_specs/trino.py:133-153 | models the keyword arguments after `impersonate_user`; stated by ImpersonatedSpec |
| TrinoParams.ExtraParamsSpec | superset/db_engine_specs/trino.py:305-327 | succeeds exactly when the nested values are dicts and, with a server certificate, the certificate file could be written, else raises what writing it raised; only `engine_params.connect_args` changes, every other key of the extra and of `engine_params` is kept; `source` keeps an existing value or becomes the user agent; https and the certificate file are set exactly when there is a server certificate |
| TrinoParams.GetExtraParams | superset/db_engine_specs/trino.py:305-327 | fills in the nested dictionaries level by level; its result is the extra parameters, or the error, that ExtraParamsSpec describes |
| TrinoParams.ExtraParams | superset/db_engine_specs/trino.py:305-327 | models the result of `get_extra_params`; stated by ExtraParamsSpec |
| TrinoParams.FromEncryptedExtraNoAuth | superset/db_engine_specs/trino.py:334-341 | no encrypted extra or no `auth_method` leaves the parameters unchanged; invalid JSON raises and changes nothing; a `connect_args` that is not a dict raises TypeError and changes nothing |
| TrinoParams.FromEncryptedExtraHttps | superset/db_engine_specs/trino.py:343-366 | with an `auth_method`, `http_scheme` becomes https even if the method is then rejected; nothing outside `connect_args` changes, every entry of `connect_args` other than `http_scheme` and `auth` (such as `source`, `verify`, `user`) is kept, and a failure leaves `auth` as it was |
| TrinoParams.FromEncryptedExtraRejects | superset/db_engine_specs/trino.py:354-364 | a method neither built in nor allowed for trino raises ValueError naming it |
| TrinoParams.FromEncryptedExtraAccepts | superset/db_engine_specs/trino.py:346-366 | the update succeeds exactly when the method is accepted and the auth params are a dict, and then installs an object of the chosen class built from them |
| TrinoParams.AuthClass | superset/db_engine_specs/trino.py:346-364 | models the choice of the authentication class; stated by FromEncryptedExtraRejects and FromEncryptedExtraAccepts |
| TrinoParams.FromEncryptedExtra | superset/db_engine_specs/trino.py:330-369 | models the parameters after `update_params_from_encrypted_extra`; stated by the four FromEncryptedExtra lemmas |
| TrinoParams.UpdateParamsFromEncryptedExtra | superset/db_engine_specs/trino.py:330-369 | updates the parameter dictionary in place to the specified contents and raises the specified error |
| TrinoCancel.CancelHandshake | superset/db_engine_specs/trino.py:180-197 | a cancellation requested before the cursor is handled is seen by the handling; one requested after leaves the payload alone; handling the cursor never sets or clears the early-cancel flag |
| TrinoCancel.PreparedExtra | superset/db_engine_specs/trino.py:278-281 | models the payload after a cancellation request; stated by CancelHandshake |
| TrinoCancel.CursorHandledExtra | superset/db_engine_specs/trino.py:181-183 | models the payload after the cursor is handled; stated by CancelHandshake |
| TrinoCancel.PrepareCancelQuery | superset/db_engine_specs/trino.py:278-281 | sets the early-cancel flag exactly when no Trino query id is recorded, and changes nothing else |
| TrinoCancel.KillQueryStatementInjective | superset/db_engine_specs/trino.py:294-297 | the kill statement names exactly the given id: the id follows the fixed prefix, and different ids give different statements |
| TrinoCancel.KillQueryStatement | superset/db_engine_specs/trino.py:294-297 | models the kill statement; stated by KillQueryStatementInjective |
| TrinoCancel.CancelQuery | superset/db_engine_specs/trino.py:283-302 | models `cancel_query`; the statement it runs is stated by KillQueryStatementInjective, and its result, true exactly when that statement for the recorded id runs without raising, by HandleCursor |
| TrinoCancel.HandleCursor | superset/db_engine_specs/trino.py:171-199 | records the cursor's query id, sets a non-empty tracking URL and calls `cancel_query` exactly when a cancellation was requested earlier; `handle_cursor` itself returns None, and the model's result only exposes what that `cancel_query` call returned: true exactly when the kill statement for the recorded id runs without raising |
| TrinoCancel.CancelBeforeOrAfterCursor | superset/db_engine_specs/trino.py:190-197 | of the two orders run one after the other, cancelling before the cursor is handled cancels through the handling; cancelling after it does nothing there |
| TrinoErrors.MapExceptionPriority | superset/db_engine_specs/trino.py:372-395 | the static entry wins, then InternalError, OperationalError, ProgrammingError in that order, otherwise the default: a class under InternalError maps to the database error, one under OperationalError but not InternalError to the operational error, one under ProgrammingError alone to the programming error, one under none to the default; and each mapped class appears only when no earlier test matched |
| TrinoErrors.MapException | superset/db_engine_specs/trino.py:382-393 | models the mapping's `get`; stated by MapExceptionPriority |
| CreateDatabase.CreateDatabaseCommand.constructor | superset/commands/database/create.py:55-56 | the command's properties are a copy of the caller's dictionary |
| CreateDatabase.RunOnCopy | superset/commands/database/create.py:55-56 | running the command leaves the caller's dictionary unchanged |
| CreateDatabase.ValidationErrorsSpec | superset/commands/database/create.py:130-153 | validation fails exactly when the URI or the name is missing or empty or the name is taken; a required-field error naming the URI is collected exactly when the URI is missing or empty, one naming the name exactly when the name is, and the name-exists error exactly when a present name is taken; nothing else is collected, each at most once; a missing name is never also reported as taken; the URI error comes first; without a name the uniqueness check does not matter |
| CreateDatabase.ValidationErrors | superset/commands/database/create.py:130-153 | models the errors `validate` collects; stated by ValidationErrorsSpec |
| CreateDatabase.CreateDatabaseCommand.Validate | superset/commands/database/create.py:130-153 | fails exactly when there are validation errors, carrying all of them |
| CreateDatabase.CreatedPropertiesSpec | superset/commands/database/create.py:155-160 | the masked encrypted extra (or "{}") becomes the encrypted extra, the masked key is removed, and every other key is unchanged |
| CreateDatabase.CreatedProperties | superset/commands/database/create.py:155-160 | models the properties after `_create_database`; stated by CreatedPropertiesSpec |
| CreateDatabase.CreateDatabaseCommand.CreateDatabaseRecord | superset/commands/database/create.py:155-164 | rewrites the properties and stores a database made from them unless storing raises |
| CreateDatabase.BeforeColon | superset/commands/database/create.py:77 | the engine label is a prefix of the URI with no colon, ending right before the first colon when there is one |
| CreateDatabase.EngineLabel | superset/commands/database/create.py:77 | models the logged engine label; stated by BeforeColon |
| CreateDatabase.StoreFailureAsWrittenUnbound | superset/commands/database/create.py:115-123 | as written, a non-SSH failure to store the database escapes as UnboundLocalError with nothing logged, where the intended handler raises DatabaseCreateFailedError |
| CreateDatabase.StoreFailureSpec | superset/commands/database/create.py:103-123 | the creation-step handler re-raises exactly the SSH tunnel errors and wraps every other error in DatabaseCreateFailedError, agreeing with the code whenever the database exists |
| CreateDatabase.StoreFailureAsWritten | superset/commands/database/create.py:103-123 | models the creation-step handlers as written; stated by StoreFailureAsWrittenUnbound and StoreFailureSpec |
| CreateDatabase.StoreFailure | superset/commands/database/create.py:103-123 | the corrected creation-step handlers; stated by StoreFailureSpec |
| CreateDatabase.StoreOutcome | superset/commands/database/create.py:88-128 | models the creation steps after a passing connection test, with the corrected handler; stated by RunOutcomeSpec and RunOutcomeCreationFailure |
| CreateDatabase.RunOutcomeCreationFailure | superset/commands/database/create.py:88-123 | when creation step i (storing, the tunnel, the permissions, in source order) is the first to raise e, `run` re-raises e if it is an SSH tunnel error and otherwise raises DatabaseCreateFailedError, logging exactly the one event of its handler |
| CreateDatabase.RunOutcomeSpec | superset/commands/database/create.py:59-128 | invalid properties fail first; an OAuth2 redirect still stores the database without a tunnel and re-raises a failure to store it; the listed connection errors are re-raised and others become DatabaseConnectionFailedError, each logged with the URI's engine; if every creation step succeeds the database is created from the rewritten properties, with a tunnel exactly when one was asked for and nothing logged; otherwise the first failing step is re-raised when it is an SSH tunnel error and becomes DatabaseCreateFailedError when not, with one event; a created database never keeps the masked key |
| CreateDatabase.RunOutcome | superset/commands/database/create.py:59-128 | models `run` with the corrected creation-step handler (see Findings); stated by RunOutcomeSpec and met by CreateDatabaseCommand.Run |
| CreateDatabase.CreateDatabaseCommand.Run | superset/commands/database/create.py:59-128 | returns the result, logs the events and leaves the properties that the run specification gives |
| ExploreApi.FirstClause | superset/explore/api.py:120-141 | finds the first `except` clause that catches the exception, and no earlier clause catches it |
| ExploreApi.ClausesCover | superset/explore/api.py:120-141 | every handled exception class is named by some clause |
| ExploreApi.ExploreGetDispatch | superset/explore/api.py:108-141 | an exception leaves the endpoint exactly when no clause catches it; otherwise the status is that of the first clause that does |
| ExploreApi.ExploreGetReturned | superset/explore/api.py:116-119 | a returned context gives 200 with it under "result" exactly when it is non-empty, and 404 otherwise; a 200 always comes from a non-empty context |
| ExploreApi.ExploreGetBodies | superset/explore/api.py:120-141 | the body is that of the first clause that catches the exception: a value error gives 400 with its message; a security exception 403 with its own dictionary; a denied dataset 403 with exactly its message, datasource id and datasource type; a chart or permalink not found 404 with its message; a wrong endpoint 302 with the redirect; a denied cache entry 403 with its message; a missing cache entry 404 with its message |
| ExploreApi.ExploreGet | superset/explore/api.py:108-141 | models `get` on the command's outcome; stated by ExploreGetDispatch, ExploreGetReturned and ExploreGetBodies |
| CliToken.NormalizeToken | superset/cli/main.py:35-45 | same length, every underscore becomes a dash and every other character stays in place |
| CliToken.NormalizeTokenSpec | superset/cli/main.py:45 | the result holds no underscore, normalising twice equals normalising once, and a token without underscores is unchanged |
| CliToken.NormalizedEqualSameName | superset/cli/main.py:45 | tokens with equal normal forms differ only by `_` against `-` |
| CliToken.SameNameNormalizedEqual | superset/cli/main.py:45 | tokens that differ only by `_` against `-` have equal normal forms |
| CliToken.NormalizeTokenSame | superset/cli/main.py:35-45 | two tokens have the same normal form exactly when they have the same length and differ only by `_` against `-` |

## Left out

- `execute_with_cursor`: it runs the query on a thread and polls with sleeps; threads and time are not modelled.
- `get_tracking_url`: the tracking URL is an input of `HandleCursor`.
- The Presto base engine spec is not part of this model: `super().handle_cursor`, `latest_partition`, `_partition_query`, the `SHOW COLUMNS` fallback of `get_columns` and `get_indexes`. Their results are inputs.
- `get_column_spec`: whether a field type is a date/time type is the `isDttm` input.
- The inspector and `convert_inspector_columns`: the base columns and the view definition are inputs.
- `get_allow_cost_estimate`, which always returns true, is not modelled.
- `create_ssl_cert_file`: writing the certificate is the `certFile` input: the file's path, or the exception raised for a certificate that cannot be parsed.
- `get_user_agent` and `BaseEngineSpec.get_extra_params`: their results are inputs.
- `json.loads`: the decoded encrypted extra is an input, None for invalid JSON; JSON that decodes to something other than an object is not modelled.
- JSON arrays and floats: the value type has no list or float variant, so an `auth_method` or `auth_params` that decodes to one cannot be represented; the TypeError for a non-dict `auth_params` is covered through the other non-dict values.
- The trino authentication classes and `requests.Session`: the model records the class name and the constructor arguments instead of building the object.
- FromEncryptedExtra: the ValueError message renders the method as Python would only for strings, integers, booleans and None; a non-JSON-scalar method gets a placeholder text.
- `db.session.commit` and the transaction decorator (`superset/utils/decorators.py` is not part of this model): persistence and rollback are not modelled, and neither is the decorator's `on_error` handler, which may turn an error leaving `run` into DatabaseCreateFailedError. `RunOutcome` describes what leaves `run` itself.
- `prepare_cancel_query` and `handle_cursor` run in different requests and threads. The model covers only the two orders in which one finishes before the other starts (`CancelBeforeOrAfterCursor`). Interleavings are not modelled: if the check at trino.py line 279 runs before the write at line 183 and the write at line 280 comes after the read at line 192, no cancellation is attempted. Neither is `set_extra_json_key` rewriting the whole stored payload, which can lose a concurrent update.
- Nested dictionaries (`connect_args` inside the engine keyword arguments or the parameters, `engine_params` inside the extra) are modelled as values. Python updates the shared nested object in place, so any other reference to it sees the change; the model does not capture that aliasing.
- Loggers and the stats logger: only the events `run` sends to the event logger on failure are modelled; validation's own event and the `db_creation_success.ssh_tunnel` counter are not.
- `TestConnectionDatabaseCommand`, `CreateSSHTunnelCommand`, `add_permissions`, `DatabaseDAO` and `is_feature_enabled` are collaborators whose outcomes are inputs.
- EngineLabel: a `sqlalchemy_uri` that is present but not a string would make the handler raise AttributeError; the model logs an empty label instead.
- `GetExploreCommand`, `CommandParameters` and the Flask request parsing are not modelled: the command's outcome is the input of `ExploreGet`. The framework decorators (`protect`, `safe`, `statsd_metrics`, event logging) are not part of this model, so an exception no clause catches is modelled as leaving the endpoint.
- The CLI's command discovery loop, `create_app` and the version command are not modelled.
- `superset/utils/webdriver.py` is not modelled: it drives a browser.

## Findings

| source | as written | input that shows it | evidently intended | confidence | as-written member | corrected member |
|---|---|---|---|---|---|---|
| superset/commands/database/create.py:119-123 | the generic handler of the creation step logs `database.db_engine_spec.__name__`, but `database` is unassigned when `_create_database` itself raised | valid properties, a passing connection test, and `DatabaseDAO.create` raising any non-SSH error such as a database integrity error | log the failure and raise DatabaseCreateFailedError from the error | medium, not executed | CreateDatabase.StoreFailureAsWrittenUnbound | CreateDatabase.StoreFailureSpec |

The rest of the model (`RunOutcome`, `CreateDatabaseCommand.Run`) uses the
corrected handler `StoreFailure`, which logs the URI's engine label when no
database exists. As written, the UnboundLocalError leaves the handler and
`run`; what the `transaction` decorator's `on_error` handler then does with it
is outside this model.

=== FILE: cli_token.dfy ===
/** The token normaliser the Superset command-line group passes to click as
    its `token_normalize_func`. */
module CliToken {

  /** `normalize_token`: every underscore becomes a dash. */
  function NormalizeToken(token: string): (r: string)
    ensures |r| == |token|
    ensures forall i :: 0 <= i < |token| ==> r[i] == if token[i] == '_' then '-' else token[i]
  {
    if token == [] then []
    else [if token[0] == '_' then '-' else token[0]] + NormalizeToken(token[1..])
  }

  /** A normalised token has no underscore, keeps every other character in
      place, and normalising it again changes nothing. */
  lemma NormalizeTokenSpec(token: string)
    ensures '_' !in NormalizeToken(token)
    ensures forall i :: 0 <= i < |token| && token[i] != '_' ==> NormalizeToken(token)[i] == token[i]
    ensures NormalizeToken(NormalizeToken(token)) == NormalizeToken(token)
    ensures '_' !in token ==> NormalizeToken(token) == token
  {
  }

  predicate IsSeparator(c: char)
  {
    c == '_' || c == '-'
  }

  /** Two characters that are equal, or are both separators. */
  predicate SameNameChar(x: char, y: char)
  {
    x == y || (IsSeparator(x) && IsSeparator(y))
  }

  /** Equal normal forms agree character by character up to separators. */
  lemma NormalizedEqualSameName(a: string, b: string)
    requires NormalizeToken(a) == NormalizeToken(b)
    ensures |a| == |b| && forall i :: 0 <= i < |a| ==> SameNameChar(a[i], b[i])
  {
    var na, nb := NormalizeToken(a), NormalizeToken(b);
    forall i | 0 <= i < |a|
      ensures SameNameChar(a[i], b[i])
    {
      assert na[i] == nb[i];
    }
  }

  /** Names that agree up to separators have equal normal forms. */
  lemma SameNameNormalizedEqual(a: string, b: string)
    requires |a| == |b| && forall i :: 0 <= i < |a| ==> SameNameChar(a[i], b[i])
    ensures NormalizeToken(a) == NormalizeToken(b)
  {
  }

  /** Two tokens have the same normal form exactly when they have the same
      length and differ only by writing `_` for `-` or the reverse. */
  lemma NormalizeTokenSame(a: string, b: string)
    ensures NormalizeToken(a) == NormalizeToken(b) <==>
      |a| == |b| && forall i :: 0 <= i < |a| ==> SameNameChar(a[i], b[i])
  {
    if NormalizeToken(a) == NormalizeToken(b) {
      NormalizedEqualSameName(a, b);
    }
    if |a| == |b| && forall i :: 0 <= i < |a| ==> SameNameChar(a[i], b[i]) {
      SameNameNormalizedEqual(a, b);
    }
  }
}

=== FILE: create_database.dfy ===
/** The command that creates a database connection: it validates the
    submitted properties, tests the connection, stores the database, sets up
    an SSH tunnel when one is asked for, and classifies every failure into
    the error the API reports. The data-access layer, the connection test,
    the SSH tunnel command, the permission set-up and the feature flag are
    collaborators whose outcomes are inputs. */
module CreateDatabase {
  import opened PyValues

  // ---------------------------------------------------------------------
  // Errors
  // ---------------------------------------------------------------------

  datatype ValidationError = RequiredField(field: string) | DatabaseExists

  /** An exception raised by a collaborator, by the class that matters to
      the command's `except` clauses. `SupersetErrors` and `Other` carry the
      concrete class name, which is logged. */
  datatype Raised =
    | OAuth2Redirect
    | SupersetErrors(cls: string)
    | SshTunnelingNotEnabled
    | SshTunnelDatabasePort
    | SshTunnelInvalid
    | SshTunnelCreateFailed
    | DatabaseInvalid
    | Other(cls: string)

  function ClassName(e: Raised): string
  {
    match e
    case OAuth2Redirect => "OAuth2RedirectError"
    case SupersetErrors(cls) => cls
    case SshTunnelingNotEnabled => "SSHTunnelingNotEnabledError"
    case SshTunnelDatabasePort => "SSHTunnelDatabasePortError"
    case SshTunnelInvalid => "SSHTunnelInvalidError"
    case SshTunnelCreateFailed => "SSHTunnelCreateFailedError"
    case DatabaseInvalid => "DatabaseInvalidError"
    case Other(cls) => cls
  }

  /** What leaves `run` when it fails. */
  datatype CreateError =
    | Invalid(errors: seq<ValidationError>)   // DatabaseInvalidError holding the collected errors
    | Reraised(original: Raised)              // the collaborator's exception, unchanged
    | ConnectionFailed(cause: Raised)         // DatabaseConnectionFailedError raised from the cause
    | CreateFailed(cause: Raised)             // DatabaseCreateFailedError raised from the cause
    | UnboundDatabase                         // UnboundLocalError: `database` read before assignment

  /** The connection-test failures shown to the user as they are. */
  predicate ShownAsIs(e: Raised)
  {
    e.SupersetErrors? || e.SshTunnelingNotEnabled? || e.SshTunnelDatabasePort?
  }

  /** The SSH tunnel failures re-raised from the creation step. */
  predicate IsSshTunnelError(e: Raised)
  {
    e.SshTunnelInvalid? || e.SshTunnelCreateFailed? || e.SshTunnelingNotEnabled? || e.SshTunnelDatabasePort?
  }

  // ---------------------------------------------------------------------
  // Results and collaborators
  // ---------------------------------------------------------------------

  datatype SshTunnel = SshTunnel(properties: Value)
  datatype DatabaseRecord = DatabaseRecord(attributes: map<string, Value>)

  datatype RunResult = Created(database: DatabaseRecord, sshTunnel: Option<SshTunnel>) | Failed(error: CreateError)

  /** A `db_creation_failed` event sent to the event logger. */
  datatype Event = Event(action: string, engine: string)

  /** The outcomes of the collaborators: the name-uniqueness check, the
      connection test, storing the database, the SSH_TUNNELING feature flag,
      the SSH tunnel command, the permission set-up (each `Some(e)` when it
      raises `e`), and the name of the stored database's engine spec. */
  datatype Collaborators = Collaborators(
    isUnique: Value -> bool,
    testConnection: Option<Raised>,
    storeDatabase: Option<Raised>,
    sshTunnelingEnabled: bool,
    createSshTunnel: Option<Raised>,
    addPermissions: Option<Raised>,
    engineSpecName: string)

  /** Everything `run` leaves behind: its result, the events it logged and
      the command's properties afterwards. */
  datatype RunTrace = RunTrace(result: RunResult, events: seq<Event>, properties: map<string, Value>)

  // ---------------------------------------------------------------------
  // Validation
  // ---------------------------------------------------------------------

  /** The errors `validate` collects, in order; the uniqueness check is only
      consulted for a present name. */
  function ValidationErrors(props: map<string, Value>, isUnique: Value -> bool): seq<ValidationError>
  {
    var uri := Get(props, "sqlalchemy_uri");
    var name := Get(props, "database_name");
    (if !Truthy(uri) then [RequiredField("sqlalchemy_uri")] else [])
    + (if !Truthy(name) then [RequiredField("database_name")]
       else if !isUnique(name) then [DatabaseExists]
       else [])
  }

  /** Validation fails exactly when the URI is missing or empty, the name is
      missing or empty, or the name is taken. Each condition is reported by
      its own error and only by it: a required-field error naming the URI, a
      required-field error naming the name, the name-exists error; nothing
      else is collected and each at most once. A missing name is never also
      reported as taken; the URI error comes first; without a name the
      uniqueness check cannot change the outcome. */
  lemma ValidationErrorsSpec(props: map<string, Value>, isUnique: Value -> bool, otherCheck: Value -> bool)
    ensures ValidationErrors(props, isUnique) == [] <==>
      Flag(props, "sqlalchemy_uri") && Flag(props, "database_name") && isUnique(props["database_name"])
    ensures !(RequiredField("database_name") in ValidationErrors(props, isUnique)
              && DatabaseExists in ValidationErrors(props, isUnique))
    ensures RequiredField("sqlalchemy_uri") in ValidationErrors(props, isUnique) ==>
      ValidationErrors(props, isUnique)[0] == RequiredField("sqlalchemy_uri")
    ensures 1 <= |ValidationErrors(props, isUnique)| ==>
      ValidationErrors(props, isUnique)[|ValidationErrors(props, isUnique)| - 1] != RequiredField("sqlalchemy_uri")
      || |ValidationErrors(props, isUnique)| == 1
    ensures !Flag(props, "database_name") ==> ValidationErrors(props, isUnique) == ValidationErrors(props, otherCheck)
    ensures RequiredField("sqlalchemy_uri") in ValidationErrors(props, isUnique) <==> !Flag(props, "sqlalchemy_uri")
    ensures RequiredField("database_name") in ValidationErrors(props, isUnique) <==> !Flag(props, "database_name")
    ensures DatabaseExists in ValidationErrors(props, isUnique) <==>
      Flag(props, "database_name") && !isUnique(props["database_name"])
    ensures forall v :: v in ValidationErrors(props, isUnique) ==>
      v in {RequiredField("sqlalchemy_uri"), RequiredField("database_name"), DatabaseExists}
    ensures |ValidationErrors(props, isUnique)|
         == (if Flag(props, "sqlalchemy_uri") then 0 else 1)
          + (if Flag(props, "database_name") && isUnique(props["database_name"]) then 0 else 1)
  {
  }

  // ---------------------------------------------------------------------
  // Storing the database
  // ---------------------------------------------------------------------

  /** The properties after `_create_database`: the masked encrypted extra (or
      "{}") becomes the encrypted extra, and the masked key is gone. */
  function CreatedProperties(props: map<string, Value>): map<string, Value>
  {
    var masked := if "masked_encrypted_extra" in props then props["masked_encrypted_extra"] else Str("{}");
    (props - {"masked_encrypted_extra"})["encrypted_extra" := masked]
  }

  lemma CreatedPropertiesSpec(props: map<string, Value>)
    ensures "masked_encrypted_extra" !in CreatedProperties(props)
    ensures "encrypted_extra" in CreatedProperties(props)
    ensures CreatedProperties(props)["encrypted_extra"]
         == if "masked_encrypted_extra" in props then props["masked_encrypted_extra"] else Str("{}")
    ensures forall k :: k != "masked_encrypted_extra" && k != "encrypted_extra" ==>
      (k in CreatedProperties(props) <==> k in props)
      && (k in props ==> CreatedProperties(props)[k] == props[k])
  {
  }

  // ---------------------------------------------------------------------
  // Engine label
  // ---------------------------------------------------------------------

  /** `s.split(":")[0]`: everything before the first colon. */
  function BeforeColon(s: string): (r: string)
    ensures r <= s && ':' !in r
    ensures |r| < |s| ==> s[|r|] == ':'
  {
    if s == [] || s[0] == ':' then [] else [s[0]] + BeforeColon(s[1..])
  }

  /** The engine logged with a failure: the URI's scheme part, or "" when
      there is no URI. */
  function EngineLabel(props: map<string, Value>): string
  {
    if "sqlalchemy_uri" in props && props["sqlalchemy_uri"].Str? then BeforeColon(props["sqlalchemy_uri"].s)
    else ""
  }

  // ---------------------------------------------------------------------
  // Failure classification
  // ---------------------------------------------------------------------

  function FailedEvent(e: Raised, engine: string): Event
  {
    Event("db_creation_failed." + ClassName(e), engine)
  }

  /** A failed connection test: shown as it is, or wrapped in
      DatabaseConnectionFailedError. Both are logged with the engine label. */
  function ConnectionTestFailure(e: Raised, props: map<string, Value>): (r: (CreateError, Event))
  {
    (if ShownAsIs(e) then Reraised(e) else ConnectionFailed(e), FailedEvent(e, EngineLabel(props)))
  }

  /** A failure while storing the database or setting up its tunnel and
      permissions, as the handler is written: SSH tunnel errors are re-raised
      and logged against the engine label; any other error is logged against
      the stored database's engine spec, and when storing the database was
      what failed there is no database to read it from. */
  function StoreFailureAsWritten(e: Raised, props: map<string, Value>, database: Option<DatabaseRecord>,
                                 engineSpecName: string): (CreateError, Option<Event>)
  {
    if IsSshTunnelError(e) then
      (Reraised(e), Some(Event("db_creation_failed." + ClassName(e) + ".ssh_tunnel", EngineLabel(props))))
    else if database.None? then (UnboundDatabase, None)
    else (CreateFailed(e), Some(FailedEvent(e, engineSpecName)))
  }

  /** The same handler as evidently intended: every non-SSH failure becomes
      DatabaseCreateFailedError; without a stored database the engine label
      is logged instead of the engine spec name. */
  function StoreFailure(e: Raised, props: map<string, Value>, database: Option<DatabaseRecord>,
                        engineSpecName: string): (CreateError, Event)
  {
    if IsSshTunnelError(e) then
      (Reraised(e), Event("db_creation_failed." + ClassName(e) + ".ssh_tunnel", EngineLabel(props)))
    else if database.None? then (CreateFailed(e), FailedEvent(e, EngineLabel(props)))
    else (CreateFailed(e), FailedEvent(e, engineSpecName))
  }

  /** As written, a failure to store the database that is not an SSH tunnel
      error escapes as UnboundLocalError, with nothing logged, instead of
      DatabaseCreateFailedError. */
  lemma StoreFailureAsWrittenUnbound(e: Raised, props: map<string, Value>, engineSpecName: string)
    requires !IsSshTunnelError(e)
    ensures StoreFailureAsWritten(e, props, None, engineSpecName) == (UnboundDatabase, None)
    ensures StoreFailure(e, props, None, engineSpecName).0 == CreateFailed(e)
  {
  }

  /** The intended handler re-raises exactly the SSH tunnel errors and wraps
      every other error in DatabaseCreateFailedError, whether or not the
      database was stored; it agrees with the handler as written whenever a
      database exists. */
  lemma StoreFailureSpec(e: Raised, props: map<string, Value>, database: Option<DatabaseRecord>,
                         engineSpecName: string)
    ensures StoreFailure(e, props, database, engineSpecName).0 == Reraised(e) <==> IsSshTunnelError(e)
    ensures StoreFailure(e, props, database, engineSpecName).0 == CreateFailed(e) <==> !IsSshTunnelError(e)
    ensures database.Some? ==>
      StoreFailureAsWritten(e, props, database, engineSpecName)
        == (StoreFailure(e, props, database, engineSpecName).0, Some(StoreFailure(e, props, database, engineSpecName).1))
  {
  }

  // ---------------------------------------------------------------------
  // run
  // ---------------------------------------------------------------------

  /** The creation step after a successful connection test: store the
      database, create its SSH tunnel if the properties ask for one, set up
      permissions. `props` are the properties after `_create_database`. */
  function StoreOutcome(props: map<string, Value>, c: Collaborators): (RunResult, seq<Event>)
  {
    if c.storeDatabase.Some? then
      var (err, event) := StoreFailure(c.storeDatabase.value, props, None, c.engineSpecName);
      (Failed(err), [event])
    else
      var database := DatabaseRecord(props);
      var sshProps := Get(props, "ssh_tunnel");
      var tunnelFailure :=
        if !Truthy(sshProps) then None
        else if !c.sshTunnelingEnabled then Some(SshTunnelingNotEnabled)
        else c.createSshTunnel;
      var failure := if tunnelFailure.Some? then tunnelFailure else c.addPermissions;
      if failure.Some? then
        var (err, event) := StoreFailure(failure.value, props, Some(database), c.engineSpecName);
        (Failed(err), [event])
      else
        (Created(database, if Truthy(sshProps) then Some(SshTunnel(sshProps)) else None), [])
  }

  /** What `run` does with the given properties and collaborator outcomes. */
  function RunOutcome(props: map<string, Value>, c: Collaborators): RunTrace
  {
    var errors := ValidationErrors(props, c.isUnique);
    if errors != [] then RunTrace(Failed(Invalid(errors)), [], props)
    else
      var created := CreatedProperties(props);
      match c.testConnection
      case Some(OAuth2Redirect) =>
        if c.storeDatabase.Some? then RunTrace(Failed(Reraised(c.storeDatabase.value)), [], created)
        else RunTrace(Created(DatabaseRecord(created), None), [], created)
      case Some(e) =>
        var (err, event) := ConnectionTestFailure(e, props);
        RunTrace(Failed(err), [event], props)
      case None =>
        var (result, events) := StoreOutcome(created, c);
        RunTrace(result, events, created)
  }

  /** The steps after a passing connection test, in the order `run` takes
      them, each with what it raises: storing the database; only when the
      properties ask for a tunnel, the feature-flag check together with
      creating the tunnel; setting up permissions. */
  function CreationSteps(props: map<string, Value>, c: Collaborators): seq<Option<Raised>>
  {
    [c.storeDatabase]
    + (if Flag(props, "ssh_tunnel")
       then [if c.sshTunnelingEnabled then c.createSshTunnel else Some(SshTunnelingNotEnabled)]
       else [])
    + [c.addPermissions]
  }

  /** The event logged for a failure of creation step `i` raising `e`. */
  function CreationFailedEvent(e: Raised, i: nat, props: map<string, Value>, engineSpecName: string): Event
  {
    if IsSshTunnelError(e) then Event("db_creation_failed." + ClassName(e) + ".ssh_tunnel", EngineLabel(props))
    else Event("db_creation_failed." + ClassName(e), if i == 0 then EngineLabel(props) else engineSpecName)
  }

  /** The rewrite of the properties keeps the URI and the tunnel request. */
  lemma CreatedPropertiesKeeps(props: map<string, Value>)
    ensures EngineLabel(CreatedProperties(props)) == EngineLabel(props)
    ensures Get(CreatedProperties(props), "ssh_tunnel") == Get(props, "ssh_tunnel")
    ensures Flag(CreatedProperties(props), "ssh_tunnel") == Flag(props, "ssh_tunnel")
  {
  }

  /** A failure of creation step `i`, after every earlier step succeeded,
      leaves `run` as the handler classifies it, with its one event. */
  lemma RunOutcomeCreationFailure(props: map<string, Value>, c: Collaborators, i: nat)
    requires ValidationErrors(props, c.isUnique) == [] && c.testConnection.None?
    requires i < |CreationSteps(props, c)| && CreationSteps(props, c)[i].Some?
    requires forall j :: 0 <= j < i ==> CreationSteps(props, c)[j].None?
    ensures
      var e := CreationSteps(props, c)[i].value;
      RunOutcome(props, c) == RunTrace(Failed(if IsSshTunnelError(e) then Reraised(e) else CreateFailed(e)),
                                       [CreationFailedEvent(e, i, props, c.engineSpecName)],
                                       CreatedProperties(props))
  {
    CreatedPropertiesKeeps(props);
    var steps := CreationSteps(props, c);
    var created := CreatedProperties(props);
    if i > 0 {
      assert steps[0].None?;
      if Flag(props, "ssh_tunnel") && i == 2 {
        assert steps[1].None?;
      }
      assert StoreFailure(steps[i].value, created, Some(DatabaseRecord(created)), c.engineSpecName).1
          == CreationFailedEvent(steps[i].value, i, props, c.engineSpecName);
    }
  }

  /** Invalid properties fail before anything else runs. An OAuth2 redirect
      during the connection test still stores the database, without a
      tunnel, and a failure to store it is re-raised as it is. The listed
      connection errors are re-raised as they are, any other connection error
      becomes DatabaseConnectionFailedError, and both are logged against the
      URI's engine. After a passing connection test, the database is created,
      with its tunnel exactly when one was asked for, if every creation step
      succeeds; otherwise the first failing step decides: an SSH tunnel error
      is re-raised, anything else becomes DatabaseCreateFailedError, and
      exactly one event is logged. A stored database never keeps the masked
      encrypted extra. */
  lemma RunOutcomeSpec(props: map<string, Value>, c: Collaborators)
    ensures ValidationErrors(props, c.isUnique) != [] ==>
      RunOutcome(props, c) == RunTrace(Failed(Invalid(ValidationErrors(props, c.isUnique))), [], props)
    ensures ValidationErrors(props, c.isUnique) == [] && c.testConnection == Some(OAuth2Redirect) ==>
      RunOutcome(props, c) ==
        if c.storeDatabase.None? then RunTrace(Created(DatabaseRecord(CreatedProperties(props)), None), [],
                                              CreatedProperties(props))
        else RunTrace(Failed(Reraised(c.storeDatabase.value)), [], CreatedProperties(props))
    ensures ValidationErrors(props, c.isUnique) == [] && c.testConnection.Some?
            && c.testConnection != Some(OAuth2Redirect) ==>
      RunOutcome(props, c) ==
        RunTrace(Failed(if ShownAsIs(c.testConnection.value) then Reraised(c.testConnection.value)
                        else ConnectionFailed(c.testConnection.value)),
                 [Event("db_creation_failed." + ClassName(c.testConnection.value), EngineLabel(props))],
                 props)
    ensures ValidationErrors(props, c.isUnique) == [] && c.testConnection.None?
            && (forall i :: 0 <= i < |CreationSteps(props, c)| ==> CreationSteps(props, c)[i].None?) ==>
      RunOutcome(props, c) ==
        RunTrace(Created(DatabaseRecord(CreatedProperties(props)),
                         if Flag(props, "ssh_tunnel") then Some(SshTunnel(props["ssh_tunnel"])) else None),
                 [], CreatedProperties(props))
    ensures ValidationErrors(props, c.isUnique) == [] && c.testConnection.None? ==>
      forall i :: 0 <= i < |CreationSteps(props, c)| && CreationSteps(props, c)[i].Some?
                  && (forall j :: 0 <= j < i ==> CreationSteps(props, c)[j].None?) ==>
        RunOutcome(props, c) ==
          RunTrace(Failed(if IsSshTunnelError(CreationSteps(props, c)[i].value)
                          then Reraised(CreationSteps(props, c)[i].value)
                          else CreateFailed(CreationSteps(props, c)[i].value)),
                   [CreationFailedEvent(CreationSteps(props, c)[i].value, i, props, c.engineSpecName)],
                   CreatedProperties(props))
    ensures RunOutcome(props, c).result.Created? ==>
      && "masked_encrypted_extra" !in RunOutcome(props, c).result.database.attributes
      && (RunOutcome(props, c).result.sshTunnel.Some? ==> c.testConnection.None? && c.sshTunnelingEnabled)
  {
    CreatedPropertiesKeeps(props);
    if ValidationErrors(props, c.isUnique) == [] && c.testConnection.None? {
      var steps := CreationSteps(props, c);
      if forall i :: 0 <= i < |steps| ==> steps[i].None? {
        assert steps[0].None? && steps[|steps| - 1].None?;
        if Flag(props, "ssh_tunnel") {
          assert steps[1].None?;
        }
      }
      forall i | 0 <= i < |steps| && steps[i].Some? && (forall j :: 0 <= j < i ==> steps[j].None?)
        ensures RunOutcome(props, c) ==
          RunTrace(Failed(if IsSshTunnelError(steps[i].value) then Reraised(steps[i].value)
                          else CreateFailed(steps[i].value)),
                   [CreationFailedEvent(steps[i].value, i, props, c.engineSpecName)],
                   CreatedProperties(props))
      {
        RunOutcomeCreationFailure(props, c, i);
      }
    }
  }

  /** A command creating a database from the submitted properties. */
  class CreateDatabaseCommand {
    var properties: map<string, Value>

    /** The command works on a copy of the caller's dictionary. */
    constructor (data: PyDict)
      ensures properties == data.entries
    {
      properties := data.entries;
    }

    /** `validate`: collects the validation errors and fails with all of them. */
    method Validate(isUnique: Value -> bool) returns (error: Option<CreateError>)
      ensures error.None? <==> ValidationErrors(properties, isUnique) == []
      ensures error.Some? ==> error.value == Invalid(ValidationErrors(properties, isUnique))
    {
      var exceptions: seq<ValidationError> := [];
      var uri := Get(properties, "sqlalchemy_uri");
      var name := Get(properties, "database_name");
      if !Truthy(uri) {
        exceptions := exceptions + [RequiredField("sqlalchemy_uri")];
      }
      if !Truthy(name) {
        exceptions := exceptions + [RequiredField("database_name")];
      } else if !isUnique(name) {
        exceptions := exceptions + [DatabaseExists];
      }
      if exceptions != [] {
        return Some(Invalid(exceptions));
      }
      error := None;
    }

    /** `_create_database`: rewrites the properties and stores them. */
    method CreateDatabaseRecord(storeDatabase: Option<Raised>) returns (database: Option<DatabaseRecord>)
      modifies this
      ensures properties == CreatedProperties(old(properties))
      ensures database == if storeDatabase.Some? then None else Some(DatabaseRecord(properties))
    {
      var masked := if "masked_encrypted_extra" in properties then properties["masked_encrypted_extra"] else Str("{}");
      properties := properties - {"masked_encrypted_extra"};
      properties := properties["encrypted_extra" := masked];
      if storeDatabase.Some? {
        return None;
      }
      database := Some(DatabaseRecord(properties));
    }

    /** `run`. */
    method Run(c: Collaborators) returns (result: RunResult, events: seq<Event>)
      modifies this
      ensures RunTrace(result, events, properties) == RunOutcome(old(properties), c)
    {
      var error := Validate(c.isUnique);
      if error.Some? {
        return Failed(error.value), [];
      }
      ghost var submitted := properties;
      if c.testConnection.Some? {
        var e := c.testConnection.value;
        if e == OAuth2Redirect {
          var database := CreateDatabaseRecord(c.storeDatabase);
          if database.None? {
            return Failed(Reraised(c.storeDatabase.value)), [];
          }
          return Created(database.value, None), [];
        }
        var engine := EngineLabel(properties);
        events := [FailedEvent(e, engine)];
        if ShownAsIs(e) {
          return Failed(Reraised(e)), events;
        }
        return Failed(ConnectionFailed(e)), events;
      }

      var database := CreateDatabaseRecord(c.storeDatabase);
      if database.None? {
        var (err, event) := StoreFailure(c.storeDatabase.value, properties, None, c.engineSpecName);
        return Failed(err), [event];
      }
      var sshTunnel: Option<SshTunnel> := None;
      var failure: Option<Raised> := None;
      var sshProps := Get(properties, "ssh_tunnel");
      if Truthy(sshProps) {
        if !c.sshTunnelingEnabled {
          failure := Some(SshTunnelingNotEnabled);
        } else if c.createSshTunnel.Some? {
          failure := c.createSshTunnel;
        } else {
          sshTunnel := Some(SshTunnel(sshProps));
        }
      }
      if failure.None? {
        failure := c.addPermissions;
      }
      if failure.Some? {
        var (err, event) := StoreFailure(failure.value, properties, database, c.engineSpecName);
        return Failed(err), [event];
      }
      result, events := Created(database.value, sshTunnel), [];
    }
  }

  /** Running the command leaves the caller's dictionary as it was. */
  method RunOnCopy(data: PyDict, c: Collaborators) returns (result: RunResult, events: seq<Event>)
    ensures data.entries == old(data.entries)
    ensures RunTrace(result, events, RunOutcome(data.entries, c).properties) == RunOutcome(data.entries, c)
  {
    var command := new CreateDatabaseCommand(data);
    result, events := command.Run(c);
  }
}

=== FILE: explore_api.dfy ===
/** The Explore REST endpoint's `GET /`: it runs the command that assembles
    the Explore context and turns its result, or the exception it raises,
    into an HTTP response. The command itself is an input: either the value
    it returns or the exception it raises. */
module ExploreApi {
  import opened PyValues

  /** The exception classes the endpoint has an `except` clause for. */
  datatype Handled =
    | ValueErrorClass
    | SupersetSecurity
    | DatasetAccessDenied
    | ChartNotFound
    | PermalinkGetFailed
    | WrongEndpoint
    | TemporaryCacheAccessDenied
    | TemporaryCacheResourceNotFound

  /** A raised exception: the handled classes it is an instance of (none for
      an exception no clause catches), its `str()`, its attributes and what
      its `to_dict()` returns. */
  datatype Exception = Exception(classes: set<Handled>, text: string, attrs: map<string, Value>,
                                 asDict: map<string, Value>)

  datatype CommandOutcome = Returned(result: Value) | Raised(ex: Exception)

  datatype Response = Response(status: int, body: map<string, Value>)

  /** The framework's default not-found response. */
  const NotFound: Response := Response(404, map["message" := Str("Not found")])

  function MessageResponse(status: int, text: string): Response
  {
    Response(status, map["message" := Str(text)])
  }

  /** `get`: the response for the command's outcome, or None when the
      exception is not caught here and leaves the endpoint. The `except`
      clauses are tried in order. */
  function ExploreGet(outcome: CommandOutcome): Option<Response>
  {
    match outcome
    case Returned(result) =>
      if !Truthy(result) then Some(NotFound) else Some(Response(200, map["result" := result]))
    case Raised(ex) =>
      if ValueErrorClass in ex.classes then Some(MessageResponse(400, ex.text))
      else if SupersetSecurity in ex.classes then Some(Response(403, ex.asDict))
      else if DatasetAccessDenied in ex.classes then
        Some(Response(403, map["message" := Get(ex.attrs, "message"),
                               "datasource_id" := Get(ex.attrs, "datasource_id"),
                               "datasource_type" := Get(ex.attrs, "datasource_type")]))
      else if ChartNotFound in ex.classes || PermalinkGetFailed in ex.classes then Some(MessageResponse(404, ex.text))
      else if WrongEndpoint in ex.classes then Some(Response(302, map["redirect" := Get(ex.attrs, "redirect")]))
      else if TemporaryCacheAccessDenied in ex.classes then Some(MessageResponse(403, ex.text))
      else if TemporaryCacheResourceNotFound in ex.classes then Some(MessageResponse(404, ex.text))
      else None
  }

  // ---------------------------------------------------------------------
  // The clause table: an independent statement of the dispatch
  // ---------------------------------------------------------------------

  /** The `except` clauses in order, each with the classes it names and the
      status it answers with. */
  const Clauses: seq<set<Handled>> := [
    {ValueErrorClass}, {SupersetSecurity}, {DatasetAccessDenied}, {ChartNotFound, PermalinkGetFailed},
    {WrongEndpoint}, {TemporaryCacheAccessDenied}, {TemporaryCacheResourceNotFound}]
  const ClauseStatus: seq<int> := [400, 403, 403, 404, 302, 403, 404]

  /** The first clause from `i` on that catches an instance of `classes`. */
  function FirstClause(classes: set<Handled>, i: nat): (r: Option<nat>)
    requires i <= |Clauses|
    ensures r.Some? ==> i <= r.value < |Clauses| && Clauses[r.value] * classes != {}
    ensures forall k :: i <= k < |Clauses| && (r.None? || k < r.value) ==> Clauses[k] * classes == {}
    decreases |Clauses| - i
  {
    if i == |Clauses| then None
    else if Clauses[i] * classes != {} then Some(i)
    else FirstClause(classes, i + 1)
  }

  /** Every handled class is named by some clause. */
  lemma ClausesCover(h: Handled)
    ensures exists k :: 0 <= k < |Clauses| && h in Clauses[k]
  {
    match h
    case ValueErrorClass => assert h in Clauses[0];
    case SupersetSecurity => assert h in Clauses[1];
    case DatasetAccessDenied => assert h in Clauses[2];
    case ChartNotFound => assert h in Clauses[3];
    case PermalinkGetFailed => assert h in Clauses[3];
    case WrongEndpoint => assert h in Clauses[4];
    case TemporaryCacheAccessDenied => assert h in Clauses[5];
    case TemporaryCacheResourceNotFound => assert h in Clauses[6];
  }

  /** A class named by a clause that catches nothing is not among the classes. */
  lemma NotCaught(k: nat, classes: set<Handled>, h: Handled)
    requires k < |Clauses| && h in Clauses[k] && Clauses[k] * classes == {}
    ensures h !in classes
  {
    var caught := Clauses[k] * classes;
    assert h in classes ==> h in caught;
  }

  /** An exception leaves the endpoint exactly when no clause catches it;
      otherwise the response carries the status of the first clause that
      does. */
  lemma {:induction false} ExploreGetDispatch(ex: Exception)
    ensures ExploreGet(Raised(ex)).None? <==> ex.classes == {}
    ensures ExploreGet(Raised(ex)).None? <==> FirstClause(ex.classes, 0).None?
    ensures ExploreGet(Raised(ex)).Some? ==>
      ExploreGet(Raised(ex)).value.status == ClauseStatus[FirstClause(ex.classes, 0).value]
  {
    var first := FirstClause(ex.classes, 0);
    if ex.classes != {} {
      var h :| h in ex.classes;
      ClausesCover(h);
      var k :| 0 <= k < |Clauses| && h in Clauses[k];
      var caught := Clauses[k] * ex.classes;
      assert h in caught;
      assert first.Some?;
      var j := first.value;
      if j >= 1 { NotCaught(0, ex.classes, ValueErrorClass); }
      if j >= 2 { NotCaught(1, ex.classes, SupersetSecurity); }
      if j >= 3 { NotCaught(2, ex.classes, DatasetAccessDenied); }
      if j >= 4 { NotCaught(3, ex.classes, ChartNotFound); NotCaught(3, ex.classes, PermalinkGetFailed); }
      if j >= 5 { NotCaught(4, ex.classes, WrongEndpoint); }
      if j >= 6 { NotCaught(5, ex.classes, TemporaryCacheAccessDenied); }
      assert Clauses[j] * ex.classes != {};
    } else {
      assert forall k :: 0 <= k < |Clauses| ==> Clauses[k] * ex.classes == {};
    }
  }

  /** A returned context is answered with 200 exactly when it is non-empty
      and then holds it under "result"; an empty one is not found. A 200 is
      only ever a returned context. */
  lemma ExploreGetReturned(outcome: CommandOutcome)
    ensures outcome.Returned? ==> ExploreGet(outcome).Some?
    ensures outcome.Returned? && Truthy(outcome.result) ==>
      ExploreGet(outcome) == Some(Response(200, map["result" := outcome.result]))
    ensures outcome.Returned? && !Truthy(outcome.result) ==> ExploreGet(outcome) == Some(NotFound)
    ensures ExploreGet(outcome).Some? && ExploreGet(outcome).value.status == 200 ==>
      outcome.Returned? && Truthy(outcome.result)
  {
  }

  /** What each caught exception is answered with, by the first clause that
      catches it: its message for a value error, its own dictionary for a
      security exception, the dataset it was about for a denied dataset, its
      redirect for a wrong endpoint, its message for a denied cache entry or
      anything not found. */
  lemma ExploreGetBodies(ex: Exception)
    ensures ValueErrorClass in ex.classes ==> ExploreGet(Raised(ex)) == Some(MessageResponse(400, ex.text))
    ensures FirstClause(ex.classes, 0) == Some(1) ==> ExploreGet(Raised(ex)) == Some(Response(403, ex.asDict))
    ensures FirstClause(ex.classes, 0) == Some(2) ==>
      ExploreGet(Raised(ex)) == Some(Response(403, map["message" := Get(ex.attrs, "message"),
                                                       "datasource_id" := Get(ex.attrs, "datasource_id"),
                                                       "datasource_type" := Get(ex.attrs, "datasource_type")]))
    ensures FirstClause(ex.classes, 0) == Some(3) ==> ExploreGet(Raised(ex)) == Some(MessageResponse(404, ex.text))
    ensures FirstClause(ex.classes, 0) == Some(4) ==>
      ExploreGet(Raised(ex)) == Some(Response(302, map["redirect" := Get(ex.attrs, "redirect")]))
    ensures FirstClause(ex.classes, 0) == Some(5) ==> ExploreGet(Raised(ex)) == Some(MessageResponse(403, ex.text))
    ensures FirstClause(ex.classes, 0) == Some(6) ==> ExploreGet(Raised(ex)) == Some(MessageResponse(404, ex.text))
    ensures ex.classes == {DatasetAccessDenied} ==>
      ExploreGet(Raised(ex)).value.body.Keys == {"message", "datasource_id", "datasource_type"}
  {
    var first := FirstClause(ex.classes, 0);
    if first.Some? {
      var j := first.value;
      if j >= 1 { NotCaught(0, ex.classes, ValueErrorClass); }
      if j >= 2 { NotCaught(1, ex.classes, SupersetSecurity); }
      if j >= 3 { NotCaught(2, ex.classes, DatasetAccessDenied); }
      if j >= 4 { NotCaught(3, ex.classes, ChartNotFound); NotCaught(3, ex.classes, PermalinkGetFailed); }
      if j >= 5 { NotCaught(4, ex.classes, WrongEndpoint); }
      if j >= 6 { NotCaught(5, ex.classes, TemporaryCacheAccessDenied); }
      var h :| h in Clauses[j] * ex.classes;
      assert h in ex.classes && h in Clauses[j];
    }
  }
}

=== FILE: py_values.dfy ===
/** Values of the Python dictionaries the backend passes around (connection
    arguments, query extras, command properties), with Python's notion of
    truthiness and the dictionary operations the modelled code relies on. */
module PyValues {

  datatype Option<+T> = None | Some(value: T)

  /** A computed value, or the exception raised while computing it. */
  datatype Result<+T> = Ok(value: T) | Err(error: PyError)

  /** A JSON-like Python value. `Null` is Python's `None`; `Object` is an
      instance of some class (an HTTP session, an authentication object)
      described by its class name and the keyword arguments it was built from. */
  datatype Value =
    | Null
    | Bool(b: bool)
    | Int(i: int)
    | Str(s: string)
    | Dict(entries: map<string, Value>)
    | Object(cls: string, attrs: map<string, Value>)

  /** The errors the modelled dictionary code can raise. */
  datatype PyError =
    | TypeError          // item assignment or `**` on a value that is not a dict
    | AttributeError     // `setdefault` on a value that is not a dict
    | ValueError(message: string)
    | JSONDecodeError
    | CertificateException // a server certificate that cannot be parsed

  /** Python's `bool(v)`: None, False, 0, "" and {} are false, the rest true. */
  predicate Truthy(v: Value)
  {
    match v
    case Null => false
    case Bool(b) => b
    case Int(i) => i != 0
    case Str(s) => s != ""
    case Dict(m) => m != map[]
    case Object(_, _) => true
  }

  /** `d.get(key)`, which yields `None` for a missing key. */
  function Get(d: map<string, Value>, key: string): Value
  {
    if key in d then d[key] else Null
  }

  /** `d.setdefault(key, default)` as far as `d` is concerned. */
  function SetDefault(d: map<string, Value>, key: string, default: Value): map<string, Value>
  {
    if key in d then d else d[key := default]
  }

  /** `d.get(key)` as a truth value: false for a missing key. */
  predicate Flag(d: map<string, Value>, key: string)
  {
    key in d && Truthy(d[key])
  }

  /** A Python `dict` object, for the operations that update one in place. */
  class PyDict {
    var entries: map<string, Value>

    constructor (init: map<string, Value>)
      ensures entries == init
    {
      entries := init;
    }
  }
}

=== FILE: trino_cancel.dfy ===
/** Query cancellation in the Trino engine spec. Trino only learns a
    query's id once the cursor has it, so a cancellation requested earlier is
    remembered in the query's extra payload and carried out when the cursor
    is handled. */
module TrinoCancel {
  import opened PyValues

  /** Keys of the query's extra payload (their values are Superset's shared
      constants). Only their being different matters here. */
  const CancelKey: string := "cancel_query"
  const EarlyCancelKey: string := "early_cancel_query"

  /** The parts of a SQL Lab query that cancellation reads and writes. */
  class Query {
    var extra: map<string, Value>
    var trackingUrl: Option<string>

    constructor (extra: map<string, Value>, trackingUrl: Option<string>)
      ensures this.extra == extra && this.trackingUrl == trackingUrl
    {
      this.extra := extra;
      this.trackingUrl := trackingUrl;
    }
  }

  /** The payload after a cancellation request: the early-cancel flag is set
      unless a Trino query id is already recorded. */
  function PreparedExtra(extra: map<string, Value>): map<string, Value>
  {
    if CancelKey !in extra then extra[EarlyCancelKey := Bool(true)] else extra
  }

  /** The payload once the cursor is handled: the cursor's query id (None
      when the cursor has none) is recorded. */
  function CursorHandledExtra(extra: map<string, Value>, cancelQueryId: Option<string>): map<string, Value>
  {
    extra[CancelKey := if cancelQueryId.Some? then Str(cancelQueryId.value) else Null]
  }

  predicate EarlyCancelRequested(extra: map<string, Value>)
  {
    Flag(extra, EarlyCancelKey)
  }

  /** The handshake: a request made before the cursor is handled is seen by
      the cursor handling, which then cancels; a request made afterwards
      leaves the payload alone (the recorded id is used to cancel instead);
      handling the cursor neither sets nor clears the flag. */
  lemma CancelHandshake(extra: map<string, Value>, cancelQueryId: Option<string>)
    ensures CancelKey !in extra ==> EarlyCancelRequested(CursorHandledExtra(PreparedExtra(extra), cancelQueryId))
    ensures PreparedExtra(CursorHandledExtra(extra, cancelQueryId)) == CursorHandledExtra(extra, cancelQueryId)
    ensures EarlyCancelRequested(CursorHandledExtra(extra, cancelQueryId)) <==> EarlyCancelRequested(extra)
    ensures CancelKey in extra ==> PreparedExtra(extra) == extra
  {
  }

  /** `prepare_cancel_query`. */
  method PrepareCancelQuery(query: Query)
    modifies query
    ensures query.extra == PreparedExtra(old(query.extra))
    ensures query.trackingUrl == old(query.trackingUrl)
  {
    if CancelKey !in query.extra {
      query.extra := query.extra[EarlyCancelKey := Bool(true)];
    }
  }

  /** Python's formatting of the query id into the kill statement. */
  function IdText(cancelQueryId: Option<string>): string
  {
    if cancelQueryId.Some? then cancelQueryId.value else "None"
  }

  /** The statement that asks Trino to kill a query. */
  function KillQueryStatement(cancelQueryId: string): string
  {
    KillPrefix + cancelQueryId + KillSuffix
  }

  const KillPrefix: string := "CALL system.runtime.kill_query(query_id => '"
  const KillSuffix: string := "',message => 'Query cancelled by Superset')"

  /** The kill statement names exactly the query it is given: different ids
      give different statements, and the id sits right after the fixed
      prefix. */
  lemma KillQueryStatementInjective(a: string, b: string)
    ensures KillQueryStatement(a)[|KillPrefix|..|KillPrefix| + |a|] == a
    ensures KillQueryStatement(a) == KillQueryStatement(b) ==> a == b
  {
  }

  /** `cancel_query`: true exactly when running the kill statement raises
      nothing. `execute` is the cursor: what running a statement and fetching
      its result raises, if anything. */
  function CancelQuery(cancelQueryId: string, execute: string -> Option<PyError>): (cancelled: bool)
    ensures cancelled <==> execute(KillQueryStatement(cancelQueryId)) == None
  {
    match execute(KillQueryStatement(cancelQueryId))
    case None => true
    case Some(_) => false
  }

  /** `handle_cursor`: records the cursor's query id and tracking URL (when
      the cursor has one), and carries out a cancellation requested earlier.
      The result is None when no cancellation was attempted, otherwise
      whether it succeeded. */
  method HandleCursor(query: Query, cursorQueryId: Option<string>, trackingUrl: Option<string>,
                      execute: string -> Option<PyError>) returns (cancelled: Option<bool>)
    modifies query
    ensures query.extra == CursorHandledExtra(old(query.extra), cursorQueryId)
    ensures query.trackingUrl == if trackingUrl.Some? && trackingUrl.value != "" then trackingUrl
                                 else old(query.trackingUrl)
    ensures cancelled.Some? <==> EarlyCancelRequested(old(query.extra))
    ensures cancelled.Some? ==> cancelled.value == CancelQuery(IdText(cursorQueryId), execute)
    ensures cancelled.Some? ==> (cancelled.value <==> execute(KillQueryStatement(IdText(cursorQueryId))) == None)
  {
    var cancelQueryId := cursorQueryId;
    query.extra := query.extra[CancelKey := if cancelQueryId.Some? then Str(cancelQueryId.value) else Null];
    if trackingUrl.Some? && trackingUrl.value != "" {
      query.trackingUrl := trackingUrl;
    }
    if Flag(query.extra, EarlyCancelKey) {
      var ok := CancelQuery(IdText(cancelQueryId), execute);
      cancelled := Some(ok);
    } else {
      cancelled := None;
    }
  }

  /** The two orders in which a cancellation request and the cursor handling
      can run one after the other: a request made before the cursor is
      handled is carried out by the handling; one made after it changes
      nothing there. */
  method CancelBeforeOrAfterCursor(query: Query, cursorQueryId: Option<string>, execute: string -> Option<PyError>,
                     cancelFirst: bool) returns (cancelled: Option<bool>)
    requires CancelKey !in query.extra && !EarlyCancelRequested(query.extra)
    modifies query
    ensures cancelFirst ==> cancelled == Some(CancelQuery(IdText(cursorQueryId), execute))
    ensures !cancelFirst ==> cancelled == None
    ensures CancelKey in query.extra && query.extra[CancelKey] == if cursorQueryId.Some? then Str(cursorQueryId.value) else Null
  {
    if cancelFirst {
      PrepareCancelQuery(query);
      cancelled := HandleCursor(query, cursorQueryId, None, execute);
    } else {
      cancelled := HandleCursor(query, cursorQueryId, None, execute);
      ghost var handled := query.extra;
      PrepareCancelQuery(query);
      assert query.extra == handled;
    }
  }
}

=== FILE: trino_columns.dfy ===
/** Column listing of the Trino engine spec: nested `ROW` columns are expanded
    into one column per named field, named by dotted path and queried through
    a quoted, aliased expression. */
module TrinoColumns {
  import opened PyValues

  /** A Trino column type: a `ROW` of named fields, or any other type
      (MAP, ARRAY, scalars), which is never descended into. */
  datatype SqlType = Row(fields: seq<RowField>) | Scalar(repr: string)
  datatype RowField = RowField(name: string, typ: SqlType)

  /** A result-set column description. `queryAs`, when present, is the SQL
      expression used to select the column. */
  datatype Column = Column(
    name: string,
    columnName: string,
    typ: SqlType,
    isDttm: bool,
    queryAs: Option<string>)

  // ---------------------------------------------------------------------
  // Dotted names: Python's `name.split(".")` and `".".join(parts)`
  // ---------------------------------------------------------------------

  /** `s.split(".")`: always at least one piece, and no piece holds a dot. */
  function SplitDots(s: string): (parts: seq<string>)
    ensures |parts| >= 1
    ensures forall k :: 0 <= k < |parts| ==> '.' !in parts[k]
  {
    if s == [] then [""]
    else
      var rest := SplitDots(s[1..]);
      if s[0] == '.' then [""] + rest
      else [[s[0]] + rest[0]] + rest[1..]
  }

  /** `".".join(parts)` for a non-empty list of pieces. */
  function JoinDots(parts: seq<string>): string
    requires |parts| >= 1
  {
    if |parts| == 1 then parts[0] else parts[0] + "." + JoinDots(parts[1..])
  }

  predicate DotFree(parts: seq<string>)
  {
    forall k :: 0 <= k < |parts| ==> '.' !in parts[k]
  }

  /** Joining the pieces of a split gives back the original name. */
  lemma {:induction false} JoinSplit(s: string)
    ensures JoinDots(SplitDots(s)) == s
  {
    if s != [] {
      var rest := SplitDots(s[1..]);
      JoinSplit(s[1..]);
      if s[0] == '.' {
        assert SplitDots(s) == [""] + rest;
        assert JoinDots(SplitDots(s)) == "" + "." + JoinDots(rest);
        assert s == [s[0]] + s[1..];
      } else if |rest| == 1 {
        assert SplitDots(s) == [[s[0]] + rest[0]];
        assert s == [s[0]] + s[1..];
      } else {
        assert SplitDots(s) == [[s[0]] + rest[0]] + rest[1..];
        assert JoinDots(rest) == rest[0] + "." + JoinDots(rest[1..]);
        assert s == [s[0]] + s[1..];
      }
    }
  }

  /** Splitting the join of dot-free pieces gives back the pieces. */
  lemma {:induction false} SplitJoin(parts: seq<string>)
    requires |parts| >= 1 && DotFree(parts)
    ensures SplitDots(JoinDots(parts)) == parts
  {
    if |parts| == 1 {
      SplitDotFree(parts[0]);
    } else {
      SplitJoin(parts[1..]);
      SplitPrefix(parts[0], JoinDots(parts[1..]));
      assert [parts[0]] + parts[1..] == parts;
    }
  }

  /** A name without dots splits into itself. */
  lemma {:induction false} SplitDotFree(w: string)
    requires '.' !in w
    ensures SplitDots(w) == [w]
  {
    if w != [] {
      SplitDotFree(w[1..]);
      assert [w[0]] + w[1..] == w;
    }
  }

  /** Splitting `w + "." + rest`, for a dot-free `w`, yields `w` followed by
      the pieces of `rest`. */
  lemma {:induction false} SplitPrefix(w: string, rest: string)
    requires '.' !in w
    ensures SplitDots(w + "." + rest) == [w] + SplitDots(rest)
  {
    if w == [] {
      assert w + "." + rest == ['.'] + rest;
      assert (['.'] + rest)[1..] == rest;
    } else {
      SplitPrefix(w[1..], rest);
      var s := w + "." + rest;
      assert s[0] == w[0];
      assert s[1..] == w[1..] + "." + rest;
      assert [w[0]] + w[1..] == w;
    }
  }

  // ---------------------------------------------------------------------
  // Quoting: "foo.bar.baz" is selected as "foo"."bar"."baz" AS "foo.bar.baz"
  // ---------------------------------------------------------------------

  function Quote(piece: string): string
  {
    "\"" + piece + "\""
  }

  function QuoteEach(parts: seq<string>): seq<string>
  {
    seq(|parts|, k requires 0 <= k < |parts| => Quote(parts[k]))
  }

  /** The quoted identifier path: every dot-separated piece of the name in
      double quotes, rejoined with dots. */
  function QuotedPath(name: string): string
  {
    JoinDots(QuoteEach(SplitDots(name)))
  }

  /** The `query_as` expression of an expanded column. */
  function QueryAs(name: string): string
  {
    QuotedPath(name) + " AS \"" + name + "\""
  }

  /** When a dotted name is built from dot-free components, its quoted path
      quotes exactly those components, in order. */
  lemma QuotedPathOfComponents(parts: seq<string>)
    requires |parts| >= 1 && DotFree(parts)
    ensures QuotedPath(JoinDots(parts)) == JoinDots(QuoteEach(parts))
    ensures QueryAs(JoinDots(parts)) == JoinDots(QuoteEach(parts)) + " AS \"" + JoinDots(parts) + "\""
  {
    SplitJoin(parts);
  }

  // ---------------------------------------------------------------------
  // Expansion of ROW columns
  // ---------------------------------------------------------------------

  /** The column generated for field `f` of a ROW column named `parent`.
      `isDttm` stands for the engine's column-spec lookup on the field type. */
  function SubColumn(parent: string, f: RowField, isDttm: SqlType -> bool): Column
  {
    var name := parent + "." + f.name;
    Column(name, name, f.typ, isDttm(f.typ), Some(QueryAs(name)))
  }

  /** What every generated sub-column of a column named `parent` looks like:
      its name is its column name, extends `parent + "."`, and is selected
      through its quoted, aliased path; it is a date-time column exactly when
      the column-spec lookup says so for its type. */
  predicate Generated(parent: string, c: Column, isDttm: SqlType -> bool)
  {
    && c.name == c.columnName
    && parent + "." <= c.name
    && c.queryAs == Some(QueryAs(c.name))
    && c.isDttm == isDttm(c.typ)
  }

  /** The column itself, followed by the expansion of each of its ROW
      fields in declaration order. */
  function ExpandColumn(col: Column, isDttm: SqlType -> bool): (cols: seq<Column>)
    decreases col.typ, 1, 0
    ensures |cols| >= 1 && cols[0] == col
    ensures !col.typ.Row? ==> cols == [col]
    ensures forall k :: 1 <= k < |cols| ==> Generated(col.name, cols[k], isDttm)
  {
    match col.typ
    case Scalar(_) => [col]
    case Row(_) => [col] + ExpandFields(col.name, col.typ, 0, isDttm)
  }

  /** The expansions of fields `i..` of ROW type `t`, the fields of a column
      named `outer`. */
  function ExpandFields(outer: string, t: SqlType, i: nat, isDttm: SqlType -> bool): (cols: seq<Column>)
    requires t.Row? && i <= |t.fields|
    decreases t, 0, |t.fields| - i
    ensures forall k :: 0 <= k < |cols| ==> Generated(outer, cols[k], isDttm)
  {
    if i == |t.fields| then []
    else
      var sub := SubColumn(outer, t.fields[i], isDttm);
      var head := ExpandColumn(sub, isDttm);
      assert forall k :: 1 <= k < |head| ==> outer + "." <= sub.name <= head[k].name;
      head + ExpandFields(outer, t, i + 1, isDttm)
  }

  /** Number of nodes of the named-field tree of a type: the type itself
      plus, for a ROW, the nodes under each field. */
  function Nodes(t: SqlType): nat
    decreases t, 1, 0
  {
    match t
    case Scalar(_) => 1
    case Row(_) => 1 + NodesFrom(t, 0)
  }

  function NodesFrom(t: SqlType, i: nat): nat
    requires t.Row? && i <= |t.fields|
    decreases t, 0, |t.fields| - i
  {
    if i == |t.fields| then 0 else Nodes(t.fields[i].typ) + NodesFrom(t, i + 1)
  }

  /** One output column per node of the named-field tree. */
  lemma {:induction false} ExpandColumnCount(col: Column, isDttm: SqlType -> bool)
    decreases col.typ, 1, 0
    ensures |ExpandColumn(col, isDttm)| == Nodes(col.typ)
  {
    if col.typ.Row? {
      ExpandFieldsCount(col.name, col.typ, 0, isDttm);
    }
  }

  lemma {:induction false} ExpandFieldsCount(outer: string, t: SqlType, i: nat, isDttm: SqlType -> bool)
    requires t.Row? && i <= |t.fields|
    decreases t, 0, |t.fields| - i
    ensures |ExpandFields(outer, t, i, isDttm)| == NodesFrom(t, i)
  {
    if i < |t.fields| {
      ExpandColumnCount(SubColumn(outer, t.fields[i], isDttm), isDttm);
      ExpandFieldsCount(outer, t, i + 1, isDttm);
    }
  }

  /** The dotted paths of the named-field tree under `prefix`, in pre-order:
      the reference the expansion is checked against. */
  function DottedPaths(prefix: string, t: SqlType): seq<string>
    decreases t, 1, 0
  {
    match t
    case Scalar(_) => [prefix]
    case Row(_) => [prefix] + DottedPathsFrom(prefix, t, 0)
  }

  function DottedPathsFrom(prefix: string, t: SqlType, i: nat): seq<string>
    requires t.Row? && i <= |t.fields|
    decreases t, 0, |t.fields| - i
  {
    if i == |t.fields| then []
    else DottedPaths(prefix + "." + t.fields[i].name, t.fields[i].typ) + DottedPathsFrom(prefix, t, i + 1)
  }

  function Names(cols: seq<Column>): seq<string>
  {
    seq(|cols|, k requires 0 <= k < |cols| => cols[k].name)
  }

  lemma NamesAppend(a: seq<Column>, b: seq<Column>)
    ensures Names(a + b) == Names(a) + Names(b)
  {
  }

  /** The expanded columns are named by the pre-order dotted paths of the
      column's named-field tree. */
  lemma {:induction false} ExpandColumnNames(col: Column, isDttm: SqlType -> bool)
    decreases col.typ, 1, 0
    ensures Names(ExpandColumn(col, isDttm)) == DottedPaths(col.name, col.typ)
  {
    if col.typ.Row? {
      ExpandFieldsNames(col.name, col.typ, 0, isDttm);
      NamesAppend([col], ExpandFields(col.name, col.typ, 0, isDttm));
    }
  }

  lemma {:induction false} ExpandFieldsNames(outer: string, t: SqlType, i: nat, isDttm: SqlType -> bool)
    requires t.Row? && i <= |t.fields|
    decreases t, 0, |t.fields| - i
    ensures Names(ExpandFields(outer, t, i, isDttm)) == DottedPathsFrom(outer, t, i)
  {
    if i < |t.fields| {
      var sub := SubColumn(outer, t.fields[i], isDttm);
      ExpandColumnNames(sub, isDttm);
      ExpandFieldsNames(outer, t, i + 1, isDttm);
      NamesAppend(ExpandColumn(sub, isDttm), ExpandFields(outer, t, i + 1, isDttm));
    }
  }

  /** The types of the named-field tree of `t`, in the same pre-order: the
      reference for the types of the expanded columns. */
  function PreorderTypes(t: SqlType): seq<SqlType>
    decreases t, 1, 0
  {
    match t
    case Scalar(_) => [t]
    case Row(_) => [t] + PreorderTypesFrom(t, 0)
  }

  function PreorderTypesFrom(t: SqlType, i: nat): seq<SqlType>
    requires t.Row? && i <= |t.fields|
    decreases t, 0, |t.fields| - i
  {
    if i == |t.fields| then []
    else PreorderTypes(t.fields[i].typ) + PreorderTypesFrom(t, i + 1)
  }

  function Types(cols: seq<Column>): seq<SqlType>
  {
    seq(|cols|, k requires 0 <= k < |cols| => cols[k].typ)
  }

  lemma TypesAppend(a: seq<Column>, b: seq<Column>)
    ensures Types(a + b) == Types(a) + Types(b)
  {
  }

  /** Every expanded column has the type of its node in the named-field
      tree: the column itself its own type, each sub-column its field's
      type. */
  lemma {:induction false} ExpandColumnTypes(col: Column, isDttm: SqlType -> bool)
    decreases col.typ, 1, 0
    ensures Types(ExpandColumn(col, isDttm)) == PreorderTypes(col.typ)
  {
    if col.typ.Row? {
      ExpandFieldsTypes(col.name, col.typ, 0, isDttm);
      TypesAppend([col], ExpandFields(col.name, col.typ, 0, isDttm));
    }
  }

  lemma {:induction false} ExpandFieldsTypes(outer: string, t: SqlType, i: nat, isDttm: SqlType -> bool)
    requires t.Row? && i <= |t.fields|
    decreases t, 0, |t.fields| - i
    ensures Types(ExpandFields(outer, t, i, isDttm)) == PreorderTypesFrom(t, i)
  {
    if i < |t.fields| {
      var sub := SubColumn(outer, t.fields[i], isDttm);
      ExpandColumnTypes(sub, isDttm);
      ExpandFieldsTypes(outer, t, i + 1, isDttm);
      TypesAppend(ExpandColumn(sub, isDttm), ExpandFields(outer, t, i + 1, isDttm));
    }
  }

  // ---------------------------------------------------------------------
  // get_columns
  // ---------------------------------------------------------------------

  /** `(options or {}).get("expand_rows")` as a truth value. */
  predicate ExpandRowsEnabled(options: Option<map<string, Value>>)
  {
    options.Some? && Flag(options.value, "expand_rows")
  }

  /** The in-order concatenation of the expansions of `cols`. */
  function ExpandAll(cols: seq<Column>, isDttm: SqlType -> bool): seq<Column>
  {
    if cols == [] then [] else ExpandColumn(cols[0], isDttm) + ExpandAll(cols[1..], isDttm)
  }

  function TotalNodes(cols: seq<Column>): nat
  {
    if cols == [] then 0 else Nodes(cols[0].typ) + TotalNodes(cols[1..])
  }

  /** The table's columns: the base columns, or, when the database asks for
      it, each base column followed by its expanded sub-columns. */
  function GetColumns(baseCols: seq<Column>, options: Option<map<string, Value>>,
                      isDttm: SqlType -> bool): seq<Column>
  {
    if !ExpandRowsEnabled(options) then baseCols else ExpandAll(baseCols, isDttm)
  }

  lemma {:induction false} ExpandAllAppend(a: seq<Column>, b: seq<Column>, isDttm: SqlType -> bool)
    ensures ExpandAll(a + b, isDttm) == ExpandAll(a, isDttm) + ExpandAll(b, isDttm)
  {
    if a != [] {
      assert (a + b)[0] == a[0] && (a + b)[1..] == a[1..] + b;
      ExpandAllAppend(a[1..], b, isDttm);
      var head := ExpandColumn(a[0], isDttm);
      assert ExpandAll(a + b, isDttm) == head + (ExpandAll(a[1..], isDttm) + ExpandAll(b, isDttm));
      assert ExpandAll(a, isDttm) == head + ExpandAll(a[1..], isDttm);
    } else {
      assert a + b == b;
    }
  }

  lemma {:induction false} ExpandAllCount(cols: seq<Column>, isDttm: SqlType -> bool)
    ensures |ExpandAll(cols, isDttm)| == TotalNodes(cols)
  {
    if cols != [] {
      ExpandColumnCount(cols[0], isDttm);
      ExpandAllCount(cols[1..], isDttm);
    }
  }

  lemma {:induction false} ExpandAllFlat(cols: seq<Column>, isDttm: SqlType -> bool)
    requires forall k :: 0 <= k < |cols| ==> !cols[k].typ.Row?
    ensures ExpandAll(cols, isDttm) == cols
  {
    if cols != [] {
      ExpandAllFlat(cols[1..], isDttm);
      assert [cols[0]] + cols[1..] == cols;
    }
  }

  /** Without `expand_rows` the base columns come back unchanged; with it the
      result has one column per node of every base column's field tree, the
      expansion of a prefix of the base columns is a prefix of the result, and
      a table without ROW columns comes back unchanged. */
  lemma GetColumnsSpec(baseCols: seq<Column>, options: Option<map<string, Value>>,
                       isDttm: SqlType -> bool)
    ensures !ExpandRowsEnabled(options) ==> GetColumns(baseCols, options, isDttm) == baseCols
    ensures ExpandRowsEnabled(options) ==> |GetColumns(baseCols, options, isDttm)| == TotalNodes(baseCols)
    ensures ExpandRowsEnabled(options) ==>
      forall n :: 0 <= n <= |baseCols| ==>
        ExpandAll(baseCols[..n], isDttm) <= GetColumns(baseCols, options, isDttm)
    ensures (forall k :: 0 <= k < |baseCols| ==> !baseCols[k].typ.Row?) ==>
      GetColumns(baseCols, options, isDttm) == baseCols
  {
    ExpandAllCount(baseCols, isDttm);
    forall n | 0 <= n <= |baseCols|
      ensures ExpandAll(baseCols[..n], isDttm) <= ExpandAll(baseCols, isDttm)
    {
      assert baseCols == baseCols[..n] + baseCols[n..];
      ExpandAllAppend(baseCols[..n], baseCols[n..], isDttm);
    }
    if forall k :: 0 <= k < |baseCols| ==> !baseCols[k].typ.Row? {
      ExpandAllFlat(baseCols, isDttm);
    }
  }
}

=== FILE: trino_errors.dfy ===
/** How the Trino engine spec maps driver exception classes to Superset's
    DB-API exception classes. */
module TrinoErrors {
  import opened PyValues

  /** The Trino driver exception classes the mapping tests for. */
  datatype TrinoBase = InternalError | OperationalError | ProgrammingError

  /** An exception class, as the mapping sees it: exactly
      `requests.exceptions.ConnectionError` (looked up by identity, so its
      subclasses are not it), or another class together with the Trino base
      classes it is a subclass of (each class counts as its own subclass). */
  datatype ExceptionClass =
    | RequestsConnectionError
    | OtherClass(name: string, trinoBases: set<TrinoBase>)

  datatype SupersetDbapiError =
    | SupersetDBAPIConnectionError
    | SupersetDBAPIDatabaseError
    | SupersetDBAPIOperationalError
    | SupersetDBAPIProgrammingError

  /** The mapping's `get(item, default)`. */
  function MapException(item: ExceptionClass, default: Option<SupersetDbapiError>): Option<SupersetDbapiError>
  {
    match item
    case RequestsConnectionError => Some(SupersetDBAPIConnectionError)
    case OtherClass(_, bases) =>
      if InternalError in bases then Some(SupersetDBAPIDatabaseError)
      else if OperationalError in bases then Some(SupersetDBAPIOperationalError)
      else if ProgrammingError in bases then Some(SupersetDBAPIProgrammingError)
      else default
  }

  /** The static entry wins, then InternalError, then OperationalError, then
      ProgrammingError; a class under none of them gets the default. Each
      mapped class is produced only when no earlier test matches. */
  lemma MapExceptionPriority(item: ExceptionClass, default: Option<SupersetDbapiError>)
    ensures item == RequestsConnectionError ==> MapException(item, default) == Some(SupersetDBAPIConnectionError)
    ensures item.OtherClass? && InternalError in item.trinoBases ==>
      MapException(item, default) == Some(SupersetDBAPIDatabaseError)
    ensures item.OtherClass? && InternalError !in item.trinoBases && OperationalError in item.trinoBases ==>
      MapException(item, default) == Some(SupersetDBAPIOperationalError)
    ensures item.OtherClass? && item.trinoBases == {ProgrammingError} ==>
      MapException(item, default) == Some(SupersetDBAPIProgrammingError)
    ensures item.OtherClass? && item.trinoBases == {} ==> MapException(item, default) == default
    ensures MapException(item, default) == Some(SupersetDBAPIOperationalError) && default != Some(SupersetDBAPIOperationalError) ==>
      item.OtherClass? && OperationalError in item.trinoBases && InternalError !in item.trinoBases
    ensures MapException(item, default) == Some(SupersetDBAPIProgrammingError) && default != Some(SupersetDBAPIProgrammingError) ==>
      item.OtherClass? && item.trinoBases == {ProgrammingError}
    ensures MapException(item, default) == Some(SupersetDBAPIConnectionError) && default != Some(SupersetDBAPIConnectionError) ==>
      item == RequestsConnectionError
  {
    if item.OtherClass? && MapException(item, default) == Some(SupersetDBAPIProgrammingError)
       && default != Some(SupersetDBAPIProgrammingError) {
      forall b | b in item.trinoBases ensures b == ProgrammingError {
      }
    }
  }
}

=== FILE: trino_params.dfy ===
/** How the Trino engine spec builds connection arguments: user
    impersonation, extra connection parameters and authentication from the
    encrypted extra. Each operation updates Python dictionaries in place; each
    is given here as a specification function on the dictionary's contents
    and as a method that performs the same updates on a `PyDict` object. */
module TrinoParams {
  import opened PyValues

  /** The dictionary contents after an in-place update, and the exception
      the update ended with, if any. */
  datatype Updated = Updated(params: map<string, Value>, error: Option<PyError>)

  /** The `requests.Session` carrying a bearer token. */
  function BearerSession(token: string): Value
  {
    Object("requests.Session", map["Authorization" := Str("Bearer " + token)])
  }

  /** The nested `connect_args` dictionary, when present and a dict. */
  function ConnectArgs(params: map<string, Value>): map<string, Value>
  {
    if "connect_args" in params && params["connect_args"].Dict? then params["connect_args"].entries else map[]
  }

  /** `connect_args` is absent or a dict, so it can be updated. */
  predicate ConnectArgsUsable(params: map<string, Value>)
  {
    "connect_args" !in params || params["connect_args"].Dict?
  }

  /** Every key but `key` is untouched. */
  ghost predicate SameExcept(before: map<string, Value>, after: map<string, Value>, key: string)
  {
    forall k :: k != key ==> (k in after <==> k in before) && (k in after ==> after[k] == before[k])
  }

  // ---------------------------------------------------------------------
  // impersonate_user
  // ---------------------------------------------------------------------

  /** The engine keyword arguments after impersonating `username` on a URL
      whose backend is `backend`. */
  function Impersonated(kwargs: map<string, Value>, username: Option<string>,
                        userToken: Option<string>, backend: string): Updated
  {
    if username.None? then Updated(kwargs, None)
    else
      var kw := SetDefault(kwargs, "connect_args", Dict(map[]));
      if backend != "trino" then Updated(kw, None)
      else
        match kw["connect_args"]
        case Dict(ca) =>
          var withUser := ca["user" := Str(username.value)];
          var withSession :=
            if userToken.Some? then withUser["http_session" := BearerSession(userToken.value)] else withUser;
          Updated(kw["connect_args" := Dict(withSession)], None)
        case _ => Updated(kw, Some(TypeError))
  }

  /** Without a user nothing changes. Otherwise only `connect_args` is
      touched: it is created if missing; for the trino backend it gets the
      user and, exactly when a token is given, a bearer session; any other
      backend gets nothing else. */
  lemma ImpersonatedSpec(kwargs: map<string, Value>, username: Option<string>,
                         userToken: Option<string>, backend: string)
    ensures username.None? ==> Impersonated(kwargs, username, userToken, backend) == Updated(kwargs, None)
    ensures username.Some? ==>
      var u := Impersonated(kwargs, username, userToken, backend);
      && SameExcept(kwargs, u.params, "connect_args")
      && "connect_args" in u.params
      && ("connect_args" in kwargs && backend != "trino" ==> u.params == kwargs)
      && ("connect_args" !in kwargs && backend != "trino" ==> u.params == kwargs["connect_args" := Dict(map[])])
      && (backend != "trino" ==> u.error == None)
    ensures username.Some? && backend == "trino" ==>
      var u := Impersonated(kwargs, username, userToken, backend);
      && (u.error == None <==> ConnectArgsUsable(kwargs))
      && (u.error != None ==> u.error == Some(TypeError) && u.params == kwargs)
      && (u.error == None ==>
            && ConnectArgs(u.params)["user"] == Str(username.value)
            && ("http_session" in ConnectArgs(u.params) <==>
                  userToken.Some? || "http_session" in ConnectArgs(kwargs))
            && (userToken.Some? ==> ConnectArgs(u.params)["http_session"] == BearerSession(userToken.value))
            && (userToken.None? ==> SameExcept(ConnectArgs(kwargs), ConnectArgs(u.params), "user"))
            && (forall k :: k != "user" && k != "http_session" ==>
                  (k in ConnectArgs(u.params) <==> k in ConnectArgs(kwargs))
                  && (k in ConnectArgs(u.params) ==> ConnectArgs(u.params)[k] == ConnectArgs(kwargs)[k])))
  {
  }

  /** `impersonate_user`: updates `kwargs` in place; the URL is returned as
      given, so only its backend name is modelled. */
  method ImpersonateUser(kwargs: PyDict, username: Option<string>, userToken: Option<string>,
                         backend: string) returns (error: Option<PyError>)
    modifies kwargs
    ensures Updated(kwargs.entries, error) == Impersonated(old(kwargs.entries), username, userToken, backend)
  {
    if username.None? {
      return None;
    }
    if "connect_args" !in kwargs.entries {
      kwargs.entries := kwargs.entries["connect_args" := Dict(map[])];
    }
    var connectArgs := kwargs.entries["connect_args"];
    if backend == "trino" {
      if !connectArgs.Dict? {
        return Some(TypeError);
      }
      var ca := connectArgs.entries["user" := Str(username.value)];
      if userToken.Some? {
        ca := ca["http_session" := BearerSession(userToken.value)];
      }
      kwargs.entries := kwargs.entries["connect_args" := Dict(ca)];
    }
    error := None;
  }

  // ---------------------------------------------------------------------
  // get_extra_params
  // ---------------------------------------------------------------------

  /** The database's server certificate is set (a non-empty string). */
  predicate HasServerCert(serverCert: Option<string>)
  {
    serverCert.Some? && serverCert.value != ""
  }

  /** The extra parameters: `baseExtra` (what the base engine spec derives
      from the database) with `engine_params.connect_args` filled in. The user
      agent becomes the `source` unless one is set; a server certificate
      switches to https and verifies against the file the certificate is
      written to. `certFile` is the outcome of writing it: the file's path,
      or the exception raised for a certificate that cannot be parsed. */
  function ExtraParams(baseExtra: map<string, Value>, userAgent: string,
                       serverCert: Option<string>, certFile: Result<string>): Result<map<string, Value>>
  {
    var extra := SetDefault(baseExtra, "engine_params", Dict(map[]));
    match extra["engine_params"]
    case Dict(ep) =>
      var engineParams := SetDefault(ep, "connect_args", Dict(map[]));
      (match engineParams["connect_args"]
       case Dict(ca) =>
         var withSource := SetDefault(ca, "source", Str(userAgent));
         if HasServerCert(serverCert) && certFile.Err? then Err(certFile.error)
         else
           var connectArgs :=
             if HasServerCert(serverCert)
             then withSource["http_scheme" := Str("https")]["verify" := Str(certFile.value)]
             else withSource;
           Ok(extra["engine_params" := Dict(engineParams["connect_args" := Dict(connectArgs)])])
       case _ => Err(AttributeError))
    case _ => Err(AttributeError)
  }

  /** The nested `engine_params.connect_args` of an extra dictionary. */
  function EngineConnectArgs(extra: map<string, Value>): map<string, Value>
  {
    if "engine_params" in extra && extra["engine_params"].Dict? then ConnectArgs(extra["engine_params"].entries)
    else map[]
  }

  predicate EngineConnectArgsUsable(extra: map<string, Value>)
  {
    "engine_params" !in extra || (extra["engine_params"].Dict? && ConnectArgsUsable(extra["engine_params"].entries))
  }

  /** The parameters are built whenever the nested dictionaries are dicts
      and, with a server certificate, the certificate file could be written;
      a certificate that cannot be written raises what writing it raised.
      Only `engine_params.connect_args` changes: every other key of the extra
      and of `engine_params` is kept, `source` is the existing one or the
      user agent, and `http_scheme`/`verify` are set to https and the
      certificate file exactly when there is a server certificate. */
  lemma ExtraParamsSpec(baseExtra: map<string, Value>, userAgent: string,
                        serverCert: Option<string>, certFile: Result<string>)
    ensures ExtraParams(baseExtra, userAgent, serverCert, certFile).Ok? <==>
      EngineConnectArgsUsable(baseExtra) && (HasServerCert(serverCert) ==> certFile.Ok?)
    ensures EngineConnectArgsUsable(baseExtra) && HasServerCert(serverCert) && certFile.Err? ==>
      ExtraParams(baseExtra, userAgent, serverCert, certFile) == Err(certFile.error)
    ensures ExtraParams(baseExtra, userAgent, serverCert, certFile).Ok? ==>
      var extra := ExtraParams(baseExtra, userAgent, serverCert, certFile).value;
      var before := EngineConnectArgs(baseExtra);
      var after := EngineConnectArgs(extra);
      && SameExcept(baseExtra, extra, "engine_params")
      && "engine_params" in extra && extra["engine_params"].Dict?
      && ("engine_params" in baseExtra ==>
            SameExcept(baseExtra["engine_params"].entries, extra["engine_params"].entries, "connect_args"))
      && ("engine_params" !in baseExtra ==> extra["engine_params"].entries.Keys == {"connect_args"})
      && after["source"] == (if "source" in before then before["source"] else Str(userAgent))
      && (HasServerCert(serverCert) ==> after["http_scheme"] == Str("https") && after["verify"] == Str(certFile.value))
      && (!HasServerCert(serverCert) ==> SameExcept(before, after, "source"))
      && (forall k :: k != "source" && k != "http_scheme" && k != "verify" ==>
            (k in after <==> k in before) && (k in after ==> after[k] == before[k]))
  {
  }

  /** `get_extra_params`: fills in the dictionary the base engine spec
      returned, level by level, and returns it. */
  method GetExtraParams(baseExtra: map<string, Value>, userAgent: string,
                        serverCert: Option<string>, certFile: Result<string>) returns (r: Result<map<string, Value>>)
    ensures r == ExtraParams(baseExtra, userAgent, serverCert, certFile)
  {
    var extra := baseExtra;
    if "engine_params" !in extra {
      extra := extra["engine_params" := Dict(map[])];
    }
    if !extra["engine_params"].Dict? {
      return Err(AttributeError);
    }
    var engineParams := extra["engine_params"].entries;
    if "connect_args" !in engineParams {
      engineParams := engineParams["connect_args" := Dict(map[])];
    }
    if !engineParams["connect_args"].Dict? {
      return Err(AttributeError);
    }
    var connectArgs := engineParams["connect_args"].entries;
    if "source" !in connectArgs {
      connectArgs := connectArgs["source" := Str(userAgent)];
    }
    if HasServerCert(serverCert) {
      connectArgs := connectArgs["http_scheme" := Str("https")];
      if certFile.Err? {
        return Err(certFile.error);
      }
      connectArgs := connectArgs["verify" := Str(certFile.value)];
    }
    engineParams := engineParams["connect_args" := Dict(connectArgs)];
    extra := extra["engine_params" := Dict(engineParams)];
    r := Ok(extra);
  }

  // ---------------------------------------------------------------------
  // update_params_from_encrypted_extra
  // ---------------------------------------------------------------------

  /** The authentication class for one of the built-in methods. */
  function BuiltinAuthClass(authMethod: string): Option<string>
  {
    if authMethod == "basic" then Some("BasicAuthentication")
    else if authMethod == "kerberos" then Some("KerberosAuthentication")
    else if authMethod == "certificate" then Some("CertificateAuthentication")
    else if authMethod == "jwt" then Some("JWTAuthentication")
    else None
  }

  /** Python's `str()` of a decimal digit, a natural number, an integer. */
  function DigitText(d: nat): string
    requires d < 10
  {
    ["0123456789"[d]]
  }

  function NatText(n: nat): string
  {
    if n < 10 then DigitText(n) else NatText(n / 10) + DigitText(n % 10)
  }

  /** Python's `str()` of a JSON scalar; other objects are named by class. */
  function ValueText(v: Value): string
  {
    match v
    case Null => "None"
    case Bool(b) => if b then "True" else "False"
    case Int(i) => if i < 0 then "-" + NatText(-i) else NatText(i)
    case Str(s) => s
    case Dict(_) => "{...}"
    case Object(cls, _) => "<" + cls + " object>"
  }

  function DisallowedAuthMessage(authMethod: Value): string
  {
    "For security reason, custom authentication '" + ValueText(authMethod)
      + "' must be listed in 'ALLOWED_EXTRA_AUTHENTICATIONS' config"
  }

  /** The authentication class chosen for `method`: a built-in one, or one
      the configuration allows for trino (`allowedTrino`); an unhashable
      method raises TypeError and any other one ValueError. */
  function AuthClass(authMethod: Value, allowedTrino: map<string, string>): Result<string>
  {
    match authMethod
    case Str(s) =>
      if BuiltinAuthClass(s).Some? then Ok(BuiltinAuthClass(s).value)
      else if s in allowedTrino then Ok(allowedTrino[s])
      else Err(ValueError(DisallowedAuthMessage(authMethod)))
    case Dict(_) => Err(TypeError)
    case _ => Err(ValueError(DisallowedAuthMessage(authMethod)))
  }

  /** `ALLOWED_EXTRA_AUTHENTICATIONS.get("trino", {})`. */
  function AllowedTrino(allowed: map<string, map<string, string>>): map<string, string>
  {
    if "trino" in allowed then allowed["trino"] else map[]
  }

  /** The connection parameters after applying the encrypted extra.
      `encryptedExtra` is the stored text (None when unset) and `decoded` what
      JSON decoding it gives (None when it is not valid JSON). */
  function FromEncryptedExtra(params: map<string, Value>, encryptedExtra: Option<string>,
                              decoded: Option<map<string, Value>>,
                              allowed: map<string, map<string, string>>): Updated
  {
    if encryptedExtra.None? || encryptedExtra.value == "" then Updated(params, None)
    else if decoded.None? then Updated(params, Some(JSONDecodeError))
    else if !Flag(decoded.value, "auth_method") then Updated(params, None)
    else if !ConnectArgsUsable(params) then Updated(params, Some(TypeError))
    else
      var https := WithHttps(params);
      var authClass := AuthClass(decoded.value["auth_method"], AllowedTrino(allowed));
      var authParams := AuthParams(decoded.value);
      if authClass.Err? then Updated(https, Some(authClass.error))
      else if !authParams.Dict? then Updated(https, Some(TypeError))
      else
        var auth := Object(authClass.value, authParams.entries);
        Updated(https["connect_args" := Dict(ConnectArgs(https)["auth" := auth])], None)
  }

  /** `params` with `connect_args.http_scheme` set to "https". */
  function WithHttps(params: map<string, Value>): map<string, Value>
    requires ConnectArgsUsable(params)
  {
    var p := SetDefault(params, "connect_args", Dict(map[]));
    p["connect_args" := Dict(p["connect_args"].entries["http_scheme" := Str("https")])]
  }

  /** `auth_params` as popped from the decoded extra. */
  function AuthParams(decoded: map<string, Value>): Value
  {
    if "auth_params" in decoded then decoded["auth_params"] else Dict(map[])
  }

  /** No encrypted extra, or no `auth_method` in it: nothing changes. Bad JSON
      raises and changes nothing, and so does a `connect_args` that is not a
      dict, with TypeError. */
  lemma FromEncryptedExtraNoAuth(params: map<string, Value>, encryptedExtra: Option<string>,
                                 decoded: Option<map<string, Value>>,
                                 allowed: map<string, map<string, string>>)
    ensures encryptedExtra.None? || encryptedExtra.value == "" ==>
      FromEncryptedExtra(params, encryptedExtra, decoded, allowed) == Updated(params, None)
    ensures encryptedExtra.Some? && encryptedExtra.value != "" && decoded.None? ==>
      FromEncryptedExtra(params, encryptedExtra, decoded, allowed) == Updated(params, Some(JSONDecodeError))
    ensures encryptedExtra.Some? && encryptedExtra.value != "" && decoded.Some?
            && !Flag(decoded.value, "auth_method") ==>
      FromEncryptedExtra(params, encryptedExtra, decoded, allowed) == Updated(params, None)
    ensures encryptedExtra.Some? && encryptedExtra.value != "" && decoded.Some?
            && Flag(decoded.value, "auth_method") && !ConnectArgsUsable(params) ==>
      FromEncryptedExtra(params, encryptedExtra, decoded, allowed) == Updated(params, Some(TypeError))
  {
  }

  /** With an `auth_method`, `connect_args.http_scheme` becomes "https" even
      when the method is then rejected; nothing outside `connect_args`
      changes, and inside it every entry but `http_scheme` and `auth` is kept.
      A failure leaves `auth` as it was. */
  lemma FromEncryptedExtraHttps(params: map<string, Value>, encryptedExtra: Option<string>,
                                decoded: Option<map<string, Value>>,
                                allowed: map<string, map<string, string>>)
    requires encryptedExtra.Some? && encryptedExtra.value != "" && decoded.Some?
    requires Flag(decoded.value, "auth_method") && ConnectArgsUsable(params)
    ensures
      var u := FromEncryptedExtra(params, encryptedExtra, decoded, allowed);
      && SameExcept(params, u.params, "connect_args")
      && "connect_args" in u.params && u.params["connect_args"].Dict?
      && ConnectArgs(u.params)["http_scheme"] == Str("https")
      && (forall k :: k != "http_scheme" && k != "auth" ==>
            (k in ConnectArgs(u.params) <==> k in ConnectArgs(params))
            && (k in ConnectArgs(params) ==> ConnectArgs(u.params)[k] == ConnectArgs(params)[k]))
      && (u.error.Some? ==> SameExcept(ConnectArgs(params), ConnectArgs(u.params), "http_scheme"))
  {
  }

  /** A string method that is neither built in nor allowed for trino raises
      ValueError naming it. */
  lemma FromEncryptedExtraRejects(params: map<string, Value>, encryptedExtra: Option<string>,
                                  decoded: Option<map<string, Value>>,
                                  allowed: map<string, map<string, string>>)
    requires encryptedExtra.Some? && encryptedExtra.value != "" && decoded.Some?
    requires Flag(decoded.value, "auth_method") && ConnectArgsUsable(params)
    requires decoded.value["auth_method"].Str?
    requires BuiltinAuthClass(decoded.value["auth_method"].s).None?
    requires decoded.value["auth_method"].s !in AllowedTrino(allowed)
    ensures FromEncryptedExtra(params, encryptedExtra, decoded, allowed).error
         == Some(ValueError(DisallowedAuthMessage(decoded.value["auth_method"])))
  {
  }

  /** The update succeeds exactly when the method is accepted and the
      authentication parameters are a dict, and then installs the
      authentication object of the chosen class built from them. */
  lemma FromEncryptedExtraAccepts(params: map<string, Value>, encryptedExtra: Option<string>,
                                  decoded: Option<map<string, Value>>,
                                  allowed: map<string, map<string, string>>)
    requires encryptedExtra.Some? && encryptedExtra.value != "" && decoded.Some?
    requires Flag(decoded.value, "auth_method") && ConnectArgsUsable(params)
    ensures
      var u := FromEncryptedExtra(params, encryptedExtra, decoded, allowed);
      var ac := AuthClass(decoded.value["auth_method"], AllowedTrino(allowed));
      && (u.error == None <==> ac.Ok? && AuthParams(decoded.value).Dict?)
      && (u.error == None ==> ConnectArgs(u.params)["auth"] == Object(ac.value, AuthParams(decoded.value).entries))
  {
  }

  /** `update_params_from_encrypted_extra`: updates `params` in place. */
  method UpdateParamsFromEncryptedExtra(params: PyDict, encryptedExtra: Option<string>,
                                        decoded: Option<map<string, Value>>,
                                        allowed: map<string, map<string, string>>)
    returns (error: Option<PyError>)
    modifies params
    ensures Updated(params.entries, error)
         == FromEncryptedExtra(old(params.entries), encryptedExtra, decoded, allowed)
  {
    if encryptedExtra.None? || encryptedExtra.value == "" {
      return None;
    }
    if decoded.None? {
      return Some(JSONDecodeError);
    }
    var authMethod := Get(decoded.value, "auth_method");
    var authParams := if "auth_params" in decoded.value then decoded.value["auth_params"] else Dict(map[]);
    if !Truthy(authMethod) {
      return None;
    }
    if "connect_args" !in params.entries {
      params.entries := params.entries["connect_args" := Dict(map[])];
    }
    if !params.entries["connect_args"].Dict? {
      return Some(TypeError);
    }
    var connectArgs := params.entries["connect_args"].entries["http_scheme" := Str("https")];
    params.entries := params.entries["connect_args" := Dict(connectArgs)];
    var authClass := AuthClass(authMethod, AllowedTrino(allowed));
    if authClass.Err? {
      return Some(authClass.error);
    }
    if !authParams.Dict? {
      return Some(TypeError);
    }
    connectArgs := connectArgs["auth" := Object(authClass.value, authParams.entries)];
    params.entries := params.entries["connect_args" := Dict(connectArgs)];
    error := None;
  }
}

=== FILE: trino_partitions.dfy ===
/** Partition information in the Trino engine spec's extra table metadata:
    the sorted, duplicate-free partition columns and the latest partition
    values keyed by column name. */
module TrinoPartitions {
  import opened PyValues

  // ---------------------------------------------------------------------
  // Python's ordering of `str` values: lexicographic by code point
  // ---------------------------------------------------------------------

  predicate StrLess(a: string, b: string)
    decreases |a|
  {
    if |a| == 0 then |b| > 0
    else if |b| == 0 then false
    else if a[0] < b[0] then true
    else a[0] == b[0] && StrLess(a[1..], b[1..])
  }

  lemma {:induction false} StrLessIrreflexive(a: string)
    decreases |a|
    ensures !StrLess(a, a)
  {
    if |a| > 0 {
      StrLessIrreflexive(a[1..]);
    }
  }

  lemma {:induction false} StrLessTransitive(a: string, b: string, c: string)
    requires StrLess(a, b) && StrLess(b, c)
    decreases |a|
    ensures StrLess(a, c)
  {
    if |a| > 0 && a[0] == b[0] && b[0] == c[0] {
      StrLessTransitive(a[1..], b[1..], c[1..]);
    }
  }

  lemma {:induction false} StrLessTotal(a: string, b: string)
    requires a != b
    decreases |a|
    ensures StrLess(a, b) || StrLess(b, a)
  {
    if |a| > 0 && |b| > 0 && a[0] == b[0] {
      assert a == [a[0]] + a[1..] && b == [b[0]] + b[1..];
      StrLessTotal(a[1..], b[1..]);
    }
  }

  lemma StrLessAsymmetric(a: string, b: string)
    requires StrLess(a, b)
    ensures !StrLess(b, a)
  {
    if StrLess(b, a) {
      StrLessTransitive(a, b, a);
      StrLessIrreflexive(a);
    }
  }

  /** Strictly increasing, hence free of duplicates. */
  ghost predicate StrictlySorted(s: seq<string>)
  {
    forall i, j :: 0 <= i < j < |s| ==> StrLess(s[i], s[j])
  }

  lemma StrictlySortedDistinct(s: seq<string>, i: nat, j: nat)
    requires StrictlySorted(s) && i < j < |s|
    ensures s[i] != s[j]
  {
    StrLessIrreflexive(s[i]);
  }

  /** Inserts `x` into a strictly sorted list unless it is already there. */
  function Insert(x: string, s: seq<string>): (r: seq<string>)
    requires StrictlySorted(s)
    ensures StrictlySorted(r)
    ensures Elements(r) == Elements(s) + {x}
  {
    if s == [] then [x]
    else if x == s[0] then s
    else if StrLess(x, s[0]) then
      assert forall j :: 0 <= j < |s| ==> StrLess(x, s[j]) by {
        forall j | 0 <= j < |s| ensures StrLess(x, s[j]) {
          if j > 0 { StrLessTransitive(x, s[0], s[j]); }
        }
      }
      assert forall k :: 0 < k <= |s| ==> ([x] + s)[k] == s[k - 1];
      assert ([x] + s)[1..] == s;
      ElementsCons([x] + s);
      [x] + s
    else
      StrLessTotal(x, s[0]);
      var tail := Insert(x, s[1..]);
      assert forall k :: 0 <= k < |tail| ==> StrLess(s[0], tail[k]) by {
        forall k | 0 <= k < |tail| ensures StrLess(s[0], tail[k]) {
          assert tail[k] in Elements(tail);
          if tail[k] != x {
            var m :| 0 <= m < |s[1..]| && s[1..][m] == tail[k];
            assert s[m + 1] == tail[k];
          }
        }
      }
      assert forall k :: 0 < k <= |tail| ==> ([s[0]] + tail)[k] == tail[k - 1];
      ElementsCons(s);
      ElementsCons([s[0]] + tail);
      [s[0]] + tail
  }

  /** The set of elements of a list. */
  function Elements(s: seq<string>): set<string>
  {
    set k | 0 <= k < |s| :: s[k]
  }

  lemma ElementsCons(s: seq<string>)
    requires s != []
    ensures Elements(s) == {s[0]} + Elements(s[1..])
  {
    forall x | x in Elements(s) ensures x in {s[0]} + Elements(s[1..]) {
      var k :| 0 <= k < |s| && s[k] == x;
      if k > 0 { assert s[1..][k - 1] == x; }
    }
    forall x | x in Elements(s[1..]) ensures x in Elements(s) {
      var k :| 0 <= k < |s[1..]| && s[1..][k] == x;
      assert s[k + 1] == x;
    }
  }

  /** `sorted(list(set(names)))`: the distinct names in increasing order. */
  function SortedUnique(names: seq<string>): (r: seq<string>)
    ensures StrictlySorted(r)
    ensures Elements(r) == Elements(names)
  {
    if names == [] then []
    else
      ElementsCons(names);
      Insert(names[0], SortedUnique(names[1..]))
  }

  /** A strictly sorted list is determined by its elements, so the sorted
      column list does not depend on the order the names were collected in. */
  lemma {:induction false} StrictlySortedUnique(a: seq<string>, b: seq<string>)
    requires StrictlySorted(a) && StrictlySorted(b) && Elements(a) == Elements(b)
    ensures a == b
  {
    ElementsEmpty(a);
    ElementsEmpty(b);
    if a != [] && b != [] {
      ElementsCons(a);
      ElementsCons(b);
      MinOfSorted(a, b[0]);
      MinOfSorted(b, a[0]);
      if a[0] != b[0] {
        StrLessAsymmetric(a[0], b[0]);
      }
      assert Elements(a[1..]) == Elements(b[1..]) by {
        NotInTail(a);
        NotInTail(b);
      }
      StrictlySortedUnique(a[1..], b[1..]);
      assert a == [a[0]] + a[1..] && b == [b[0]] + b[1..];
    }
  }

  lemma ElementsEmpty(s: seq<string>)
    ensures Elements(s) == {} <==> s == []
  {
    if s != [] {
      assert s[0] in Elements(s);
    }
  }

  lemma MinOfSorted(s: seq<string>, x: string)
    requires StrictlySorted(s) && s != [] && x in Elements(s)
    ensures x == s[0] || StrLess(s[0], x)
  {
  }

  lemma NotInTail(s: seq<string>)
    requires StrictlySorted(s) && s != []
    ensures s[0] !in Elements(s[1..])
  {
    if s[0] in Elements(s[1..]) {
      var k :| 0 <= k < |s[1..]| && s[1..][k] == s[0];
      StrictlySortedDistinct(s, 0, k + 1);
    }
  }

  // ---------------------------------------------------------------------
  // Partition columns
  // ---------------------------------------------------------------------

  /** An index of the table, as reported by the inspector: its `name` and its
      `column_names`, either of which may be absent. */
  datatype Index = Index(name: Option<string>, columnNames: Option<seq<string>>)

  predicate IsPartitionIndex(ix: Index)
  {
    ix.name == Some("partition")
  }

  /** `index.get("column_names", [])`. */
  function IndexColumns(ix: Index): seq<string>
  {
    if ix.columnNames.Some? then ix.columnNames.value else []
  }

  /** The column names of the partition indexes, in index order. */
  function PartitionColumnNames(indexes: seq<Index>): seq<string>
  {
    if indexes == [] then []
    else
      (if IsPartitionIndex(indexes[0]) then IndexColumns(indexes[0]) else [])
      + PartitionColumnNames(indexes[1..])
  }

  /** A name is collected exactly when some partition index lists it. */
  lemma {:induction false} PartitionColumnNamesSpec(indexes: seq<Index>, c: string)
    ensures c in PartitionColumnNames(indexes) <==>
      exists i :: 0 <= i < |indexes| && IsPartitionIndex(indexes[i]) && c in IndexColumns(indexes[i])
  {
    if indexes != [] {
      PartitionColumnNamesSpec(indexes[1..], c);
      if c in PartitionColumnNames(indexes[1..]) {
        var i :| 0 <= i < |indexes[1..]| && IsPartitionIndex(indexes[1..][i]) && c in IndexColumns(indexes[1..][i]);
        assert indexes[i + 1] == indexes[1..][i];
      }
      if exists i :: 0 <= i < |indexes| && IsPartitionIndex(indexes[i]) && c in IndexColumns(indexes[i]) {
        var i :| 0 <= i < |indexes| && IsPartitionIndex(indexes[i]) && c in IndexColumns(indexes[i]);
        if i > 0 { assert indexes[1..][i - 1] == indexes[i]; }
      }
    }
  }

  /** The `cols` entry: the partition column names, sorted, each once. */
  function PartitionCols(indexes: seq<Index>): seq<string>
  {
    SortedUnique(PartitionColumnNames(indexes))
  }

  /** `cols` is strictly increasing (so duplicate-free) and holds exactly the
      column names of the indexes named "partition". */
  lemma PartitionColsSpec(indexes: seq<Index>)
    ensures StrictlySorted(PartitionCols(indexes))
    ensures forall c :: c in PartitionCols(indexes) <==>
      exists i :: 0 <= i < |indexes| && IsPartitionIndex(indexes[i]) && c in IndexColumns(indexes[i])
  {
    var cols := PartitionCols(indexes);
    forall c ensures c in cols <==>
      exists i :: 0 <= i < |indexes| && IsPartitionIndex(indexes[i]) && c in IndexColumns(indexes[i])
    {
      PartitionColumnNamesSpec(indexes, c);
      var names := PartitionColumnNames(indexes);
      assert c in cols <==> c in Elements(cols);
      assert c in names <==> c in Elements(names);
    }
  }

  // ---------------------------------------------------------------------
  // Latest partition values
  // ---------------------------------------------------------------------

  /** `dict(zip(keys, values))` built on top of `acc`: pairs up to the shorter
      list, a later key overriding an earlier one. */
  function ZipInto(acc: map<string, Value>, keys: seq<string>, values: seq<Value>): map<string, Value>
    decreases |keys|
  {
    if keys == [] || values == [] then acc
    else ZipInto(acc[keys[0] := values[0]], keys[1..], values[1..])
  }

  /** Pairing every key with `None` maps every key, and nothing else, to `None`. */
  lemma {:induction false} ZipIntoNulls(acc: map<string, Value>, keys: seq<string>, values: seq<Value>)
    requires |values| >= |keys|
    requires forall k :: 0 <= k < |values| ==> values[k] == Null
    requires forall c :: c in acc ==> acc[c] == Null
    decreases |keys|
    ensures ZipInto(acc, keys, values).Keys == acc.Keys + Elements(keys)
    ensures forall c :: c in ZipInto(acc, keys, values) ==> ZipInto(acc, keys, values)[c] == Null
  {
    if keys != [] {
      ZipIntoNulls(acc[keys[0] := values[0]], keys[1..], values[1..]);
      ElementsCons(keys);
    }
  }

  /** With distinct keys, each paired key maps to its own value. */
  lemma {:induction false} ZipIntoDistinct(acc: map<string, Value>, keys: seq<string>, values: seq<Value>, i: nat)
    requires i < |keys| && i < |values|
    requires forall p, q :: 0 <= p < q < |keys| ==> keys[p] != keys[q]
    decreases |keys|
    ensures keys[i] in ZipInto(acc, keys, values) && ZipInto(acc, keys, values)[keys[i]] == values[i]
  {
    var acc' := acc[keys[0] := values[0]];
    if i == 0 {
      ZipIntoKeeps(acc', keys[1..], values[1..], keys[0]);
    } else {
      ZipIntoDistinct(acc', keys[1..], values[1..], i - 1);
    }
  }

  /** A key the remaining pairs do not mention keeps its value. */
  lemma {:induction false} ZipIntoKeeps(acc: map<string, Value>, keys: seq<string>, values: seq<Value>, c: string)
    requires c in acc && c !in keys
    decreases |keys|
    ensures c in ZipInto(acc, keys, values) && ZipInto(acc, keys, values)[c] == acc[c]
  {
    if keys != [] && values != [] {
      assert c != keys[0];
      assert c !in keys[1..];
      ZipIntoKeeps(acc[keys[0] := values[0]], keys[1..], values[1..], c);
    }
  }

  /** The shorter length of two sequences: how many pairs `zip` yields. */
  function PairCount(m: nat, n: nat): nat
  {
    if m <= n then m else n
  }

  /** Zipping adds exactly the keys that get a partner. */
  lemma {:induction false} ZipIntoKeys(acc: map<string, Value>, keys: seq<string>, values: seq<Value>)
    decreases |keys|
    ensures ZipInto(acc, keys, values).Keys == acc.Keys + Elements(keys[..PairCount(|keys|, |values|)])
  {
    var n := PairCount(|keys|, |values|);
    if keys == [] || values == [] {
      assert keys[..n] == [];
    } else {
      ZipIntoKeys(acc[keys[0] := values[0]], keys[1..], values[1..]);
      ElementsCons(keys[..n]);
      assert keys[..n][1..] == keys[1..][..PairCount(|keys[1..]|, |values[1..]|)];
    }
  }

  /** `latest`: the latest partition values keyed by column name; when the
      latest partition yields nothing, every column maps to `None`. */
  function Latest(colNames: seq<string>, latestParts: Option<seq<Value>>): map<string, Value>
  {
    var parts :=
      if latestParts.None? || latestParts.value == [] then seq(|colNames|, _ => Null)
      else latestParts.value;
    ZipInto(map[], colNames, parts)
  }

  /** Without latest parts, `latest` maps every column name, and only those,
      to `None`; with them, its keys are exactly the column names `zip`
      pairs with a part, and with distinct column names each of them maps to
      its own latest value. */
  lemma LatestSpec(colNames: seq<string>, latestParts: Option<seq<Value>>)
    ensures (latestParts.None? || latestParts.value == []) ==>
      && Latest(colNames, latestParts).Keys == Elements(colNames)
      && forall c :: c in Latest(colNames, latestParts) ==> Latest(colNames, latestParts)[c] == Null
    ensures latestParts.Some? && latestParts.value != [] ==>
      Latest(colNames, latestParts).Keys == Elements(colNames[..PairCount(|colNames|, |latestParts.value|)])
    ensures latestParts.Some? && (forall p, q :: 0 <= p < q < |colNames| ==> colNames[p] != colNames[q]) ==>
      forall i :: 0 <= i < |colNames| && i < |latestParts.value| ==>
        colNames[i] in Latest(colNames, latestParts) &&
        Latest(colNames, latestParts)[colNames[i]] == latestParts.value[i]
  {
    if latestParts.None? || latestParts.value == [] {
      ZipIntoNulls(map[], colNames, seq(|colNames|, _ => Null));
    } else {
      ZipIntoKeys(map[], colNames, latestParts.value);
    }
    if latestParts.Some? && latestParts.value != [] && forall p, q :: 0 <= p < q < |colNames| ==> colNames[p] != colNames[q] {
      forall i | 0 <= i < |colNames| && i < |latestParts.value|
        ensures colNames[i] in Latest(colNames, latestParts)
        ensures Latest(colNames, latestParts)[colNames[i]] == latestParts.value[i]
      {
        ZipIntoDistinct(map[], colNames, latestParts.value, i);
      }
    }
  }

  // ---------------------------------------------------------------------
  // Extra table metadata
  // ---------------------------------------------------------------------

  datatype Partitions = Partitions(cols: seq<string>, latest: map<string, Value>, partitionQuery: string)
  datatype TableMetadata = TableMetadata(partitions: Option<Partitions>, view: Option<string>)

  /** The extra metadata of a table. `colNames` and `latestParts` are what the
      latest-partition lookup returns, `partitionQuery` is the generated
      partition query, and `viewDefinition` is the inspector's view definition
      when the table is a view. */
  function ExtraTableMetadata(indexes: seq<Index>, colNames: seq<string>,
                              latestParts: Option<seq<Value>>, partitionQuery: string,
                              viewDefinition: Option<string>): (md: TableMetadata)
    ensures md.partitions.Some? <==> indexes != []
    ensures md.partitions.Some? ==> StrictlySorted(md.partitions.value.cols)
    ensures md.partitions.Some? ==> forall c :: c in md.partitions.value.cols <==>
      exists i :: 0 <= i < |indexes| && IsPartitionIndex(indexes[i]) && c in IndexColumns(indexes[i])
    ensures md.partitions.Some? && (latestParts.None? || latestParts.value == []) ==>
      && md.partitions.value.latest.Keys == Elements(colNames)
      && forall c :: c in md.partitions.value.latest ==> md.partitions.value.latest[c] == Null
    ensures md.partitions.Some? && latestParts.Some? && latestParts.value != [] ==>
      md.partitions.value.latest.Keys == Elements(colNames[..PairCount(|colNames|, |latestParts.value|)])
    ensures md.partitions.Some? && latestParts.Some? && (forall p, q :: 0 <= p < q < |colNames| ==> colNames[p] != colNames[q]) ==>
      forall i :: 0 <= i < |colNames| && i < |latestParts.value| ==>
        colNames[i] in md.partitions.value.latest && md.partitions.value.latest[colNames[i]] == latestParts.value[i]
    ensures md.partitions.Some? ==> md.partitions.value.partitionQuery == partitionQuery
    ensures md.view == viewDefinition
  {
    PartitionColsSpec(indexes);
    LatestSpec(colNames, latestParts);
    var partitions :=
      if indexes == [] then None
      else Some(Partitions(PartitionCols(indexes), Latest(colNames, latestParts), partitionQuery));
    TableMetadata(partitions, viewDefinition)
  }
}
